=== FILE: README.md ===
# Employee-management backend: authentication, tokens and reports, in Dafny

This project models the security-relevant core of an ASP.NET Core backend. It covers:

- **Request-body validation.** The data-annotation rules on `RegisterDto`, `LoginDto` and the `Qualification` entity. Each rule is modelled with the framework's own semantics:
  - `[Required]` means not null, empty or white space.
  - `[StringLength]` counts UTF-16 code units.
  - `[EmailAddress]` requires exactly one `@`, which is neither the first nor the last character.
  - `[RegularExpression]` needs a whole-string match, and its `\d` matches any Unicode decimal digit.
  - `[Range(int, int)]` on a `decimal` converts with `Convert.ToInt32`. That conversion rounds half to even and throws on overflow.
- **The JWT token service.** The five ordered settings checks that run when the service is constructed. Token generation: the four claims, the 32-byte HS256 key rule counted in UTF-8 bytes, and the expiry computed as `now + int.Parse(ExpiryInMinutes)` minutes.
- **The authentication controller.** Registration and login as functions from the request body and the identity store's answers to an HTTP response. Each outcome also records, in order, the calls made to the store and to the token service.
- **The reports controller.** Its five CRUD actions over a report table. The table is a map from id to report plus the identity column's next value. Each action identifies its caller by the name-identifier claim.

The wall clock, fresh GUIDs, and whether a database save succeeds are all parameters. The identity store (`UserManager`, `SignInManager`) is a set of oracle functions supplied by the caller. The store's password policy is modelled exactly as configured, because it decides which passwords the store rejects.

Modules:

- `Wrappers`: `Option` and `Result`.
- `Strings`: white space, `Trim`, UTF-16 and UTF-8 lengths, `IndexOf`.
- `Int32Parsing`: `int.Parse` and `int.TryParse` under `NumberStyles.Integer`.
- `Decimals`: `decimal`, and `Convert.ToInt32` rounding.
- `Time`: `DateTime` as ticks.
- `DataAnnotations`: the validation attributes.
- `Identity`: the user and result shapes, and the password options.
- `RegisterModel`, `LoginModel`, `Qualification`: the validated models.
- `JwtTokenService`.
- `Http`: status codes and `ErrorResponseDto`.
- `AuthController`.
- `ReportsController`.

Two behaviours of the code are worth stating:

- **When invalid JWT settings fail.** `JwtTokenService` is registered as a scoped service (Program.cs:68), so invalid settings do not stop the process at start-up. Instead, each request that activates `AuthController` fails with an unhandled exception, which surfaces as a 500. This is `AuthController.RegisterRequest` / `LoginRequest`. A missing or empty `Key` fails even earlier. The bearer options build the signing key from it (Program.cs:63) when authentication first runs, and the authentication middleware runs on every request, so every endpoint answers 500.
- **Create and update check the body first.** They test the model state before the caller's identity. An authenticated principal without a name-identifier claim therefore gets 400 for an invalid body, not 401. An anonymous request never reaches the action (see `[Authorize]` under "## Left out").

## Model

| member | source | states |
|---|---|---|
| Strings.LeadingWhiteSpace | Controllers/AuthController.cs:58 | the count is the length of the maximal white-space prefix |
| Strings.TrailingWhiteSpace | Controllers/AuthController.cs:58 | the count is the length of the maximal white-space suffix |
| Strings.TrimStart | Controllers/AuthController.cs:58 | the leading white space is dropped: the result is empty exactly for an all-white-space input, and otherwise starts with non-white-space |
| Strings.TrimEnd | Controllers/AuthController.cs:58 | the result is a prefix of the input, the dropped tail is all white space, and the result ends with non-white-space unless empty |
| Strings.Trim | Controllers/AuthController.cs:58 | the result is the input minus its white-space ends; it is empty exactly when the input is all white space, and otherwise starts and ends with non-white-space |
| Strings.TrimIdempotent | Controllers/AuthController.cs:58 | trimming a trimmed full name changes nothing |
| Strings.Utf16Length | DTOs/RegisterDto.cs:10 | `string.Length` lies between the character count and twice it, and equals the character count exactly when every character is in the Basic Multilingual Plane |
| Strings.Utf8Length | Controllers/JwtTokenService.cs:40-42 | the UTF-8 byte count lies between one and four bytes per character, and equals the character count exactly for ASCII |
| Strings.Utf8LengthOfRepeat | Controllers/JwtTokenService.cs:40-42 | a key of n copies of one character has n times that character's byte count |
| Strings.IndexOf | DTOs/RegisterDto.cs:6 | -1 exactly when the character is absent, otherwise the first position holding it |
| Strings.LastIndexOf | DTOs/RegisterDto.cs:6 | -1 exactly when the character is absent, otherwise the last position holding it |
| Int32Parsing.Span | Controllers/JwtTokenService.cs:91 | the length of the longest prefix satisfying the predicate |
| Int32Parsing.SpanAll | Controllers/JwtTokenService.cs:91 | a string whose every character satisfies the predicate is spanned entirely |
| Int32Parsing.ParseMagnitude | Controllers/JwtTokenService.cs:91 | a magnitude is only read from text that starts with a digit |
| Int32Parsing.ParseInt32 | Controllers/JwtTokenService.cs:55 | a parsed value is always within 32-bit range; any text that is not a format error contains an ASCII digit; the empty string is a format error |
| Int32Parsing.TryParse | Controllers/JwtTokenService.cs:91 | an accepted text contains an ASCII digit, and the value it yields fits in 32 bits |
| Int32Parsing.TryParseFormat | Controllers/JwtTokenService.cs:91 | `TryParse` reads back every 32-bit value as `ToString` writes it |
| Int32Parsing.TryParsePaddedFormat | Controllers/JwtTokenService.cs:91 | `TryParse` reads back every 32-bit value written by `ToString`, with any white space (space, tab to carriage return) before and after |
| Int32Parsing.SpanOfConcat | Controllers/JwtTokenService.cs:91 | the span of a string stops exactly at the first character that fails the predicate |
| Int32Parsing.LeadingWhiteIgnored | Controllers/JwtTokenService.cs:91 | leading white space does not change what a number parses to |
| Int32Parsing.ParseMagnitudeOfPaddedDigits | Controllers/JwtTokenService.cs:91 | the digits of n followed by white space read back as n |
| Int32Parsing.ParseFormatTrailingWhite | Controllers/JwtTokenService.cs:91 | a formatted 32-bit value followed by white space parses back to itself |
| Int32Parsing.ParseNonNegativeDigits | Controllers/JwtTokenService.cs:91 | the digits of a non-negative 32-bit value, then white space, parse to that value |
| Int32Parsing.ParseNegativeDigits | Controllers/JwtTokenService.cs:91 | a minus sign, the digits of m up to 2^31, then white space, parse to -m |
| Int32Parsing.Digits | Controllers/JwtTokenService.cs:91 | the decimal rendering of a natural number is a non-empty digit string |
| Int32Parsing.DigitsValueOfDigits | Controllers/JwtTokenService.cs:91 | reading back the digits of n gives n |
| Int32Parsing.ParseMagnitudeOfDigits | Controllers/JwtTokenService.cs:91 | the magnitude reader accepts the digits of n and returns n |
| Int32Parsing.ParseFormatRoundTrip | Controllers/JwtTokenService.cs:55 | every 32-bit integer, written in invariant culture, parses back to itself |
| Decimals.Pow10 | Models/Qualification.cs:13-14 | the scale factor of a decimal is at least 1 |
| Decimals.RoundHalfEvenIsNearest | Models/Qualification.cs:13-14 | the rounded value is within half a unit of the decimal, and a tie goes to the even neighbour |
| Decimals.RoundHalfEvenUnique | Models/Qualification.cs:13-14 | any integer that is nearest with ties to even is the rounded value |
| Decimals.NearestUnique | Models/Qualification.cs:13-14 | at most one integer is nearest with ties to even |
| Decimals.RoundWithinBounds | Models/Qualification.cs:13-14 | a decimal exactly within integer bounds rounds within them |
| Decimals.NearestWithinBounds | Models/Qualification.cs:13-14 | the nearest integer to a value within integer bounds is within them |
| Decimals.NearestInEvenRange | Models/Qualification.cs:13-14 | for even bounds, the nearest-even integer lies within them exactly when the value lies within the bounds widened by one half on both sides |
| Decimals.NearestAbove | Models/Qualification.cs:13-14 | a nearest-even integer above an even bound means the value exceeds the bound plus one half |
| Decimals.NearestBelow | Models/Qualification.cs:13-14 | a nearest-even integer below an even bound means the value is below the bound minus one half |
| Decimals.ToInt32 | Models/Qualification.cs:13-14 | the conversion succeeds exactly when the rounded value fits in 32 bits, and then returns it |
| Time.AddMinutes | Controllers/JwtTokenService.cs:55 | it succeeds exactly when the result is a representable `DateTime`; the result is `minutes` minutes later, strictly later for a positive count |
| DataAnnotations.EmailAddressIff | DTOs/RegisterDto.cs:6 | an address is accepted exactly when it has one `@`, neither first nor last |
| DataAnnotations.RangeDecimal | Models/Qualification.cs:13-14 | the attribute throws exactly when the conversion overflows, and accepts exactly when the rounded value is within the bounds |
| DataAnnotations.RangeDecimalAcceptsExactRange | Models/Qualification.cs:13-14 | any value exactly within 32-bit bounds is accepted |
| Identity.DistinctCount | Program.cs:36-40 | the number of distinct characters is zero exactly for the empty password |
| Identity.PasswordErrors | Program.cs:36-40 | the store rejects a password exactly when it is blank or shorter than 8, or lacks a non-alphanumeric character, an ASCII digit, a lower-case letter or an upper-case letter; it reports the missing digit and the short length precisely |
| RegisterModel.MatchPasswordPattern | DTOs/RegisterDto.cs:11-12 | a single left-to-right scan decides the password pattern exactly as the declarative definition does |
| RegisterModel.Errors | DTOs/RegisterDto.cs:5-17 | there are no errors exactly when all three fields pass their rules |
| RegisterModel.EmailErrors | DTOs/RegisterDto.cs:5-7 | no message exactly when the email is present and well formed; the required and format messages each appear exactly when their rule fails, and no other message can appear |
| RegisterModel.PasswordErrors | DTOs/RegisterDto.cs:9-13 | no message exactly when the password passes all three attributes; the required, length and pattern messages each appear exactly when their rule fails, and no other message can appear |
| RegisterModel.FullNameErrors | DTOs/RegisterDto.cs:15-17 | no message exactly when the full name is present and at most 100 code units long; the required and length messages each appear exactly when their rule fails, and no other message can appear |
| RegisterModel.ErrorsNameFailingRules | DTOs/RegisterDto.cs:5-17 | in the whole body's error list, each of the seven messages appears exactly when its rule fails |
| RegisterModel.EmailMessagesNamed | DTOs/RegisterDto.cs:5-7 | in the whole body's error list, the two email messages appear exactly when their rule fails |
| RegisterModel.FullNameMessagesNamed | DTOs/RegisterDto.cs:15-17 | in the whole body's error list, the two full-name messages appear exactly when their rule fails |
| RegisterModel.PasswordMessagesNamed | DTOs/RegisterDto.cs:9-13 | in the whole body's error list, the three password messages appear exactly when their rule fails |
| RegisterModel.ClassCharFacts | DTOs/RegisterDto.cs:11 | every character the pattern allows is in the Basic Multilingual Plane and is not white space |
| RegisterModel.ClassCharsAreInBasicPlane | DTOs/RegisterDto.cs:10-11 | for a string drawn from the pattern's class, `string.Length` is its character count, and it is not blank unless empty |
| RegisterModel.PasswordAcceptedIff | DTOs/RegisterDto.cs:9-13 | a password is accepted exactly when it has 8 to 100 characters, all from the class, including a lower-case letter, an upper-case letter, a digit and a special character |
| RegisterModel.PasswordOutsideClassRejected | DTOs/RegisterDto.cs:11 | a space, `#` or `-` anywhere makes the password unacceptable |
| RegisterModel.OverlongCompliantPasswordRejected | DTOs/RegisterDto.cs:10-11 | a 101-character password that matches the pattern is still rejected, by the length rule alone |
| RegisterModel.AsciiAcceptedPasswordMeetsStorePolicy | Program.cs:36-40 | an ASCII password that registration accepts is never rejected by the store's policy |
| RegisterModel.StorePolicyMetBy | Program.cs:36-40 | a non-blank password of at least 8 units with an ASCII digit, a special character, a lower-case and an upper-case letter meets the store's policy |
| RegisterModel.ArabicIndicPasswordAccepted | DTOs/RegisterDto.cs:9-13 | "Abcdef@" followed by ARABIC-INDIC DIGIT ONE passes all three password attributes |
| RegisterModel.ArabicIndicPasswordHasNoAsciiDigit | Program.cs:36 | that password has no ASCII digit |
| RegisterModel.DigitlessPasswordReported | Program.cs:36 | a password with no ASCII digit gets the store's missing-digit error |
| RegisterModel.NonAsciiDigitPasswordFailsStorePolicy | DTOs/RegisterDto.cs:11 | a password whose only digit is Arabic-Indic passes registration but fails the store's digit rule |
| LoginModel.Errors | DTOs/LoginDto.cs:7-12 | no errors exactly when the email is present and well formed and the password is not blank; each message appears exactly when its rule fails |
| LoginModel.AnyNonBlankPasswordPasses | DTOs/LoginDto.cs:11-12 | login imposes no length or complexity rule on the password |
| LoginModel.OneCharacterPasswordPasses | DTOs/LoginDto.cs:11-12 | the password "x" is acceptable at login |
| Qualification.Validate | Models/Qualification.cs:9-14 | validation throws exactly when the percentage overflows `int`; otherwise each message is present exactly when its rule fails, and there are none exactly when all rules hold |
| Qualification.MarksAcceptedIff | Models/Qualification.cs:13-14 | a percentage is accepted exactly when it lies in [-0.5, 100.5] |
| Qualification.JustAboveHundredAccepted | Models/Qualification.cs:13-14 | 100.4 is accepted although it exceeds the stated maximum |
| Qualification.HugePercentageThrows | Models/Qualification.cs:13-14 | a percentage of 2^32 makes validation throw instead of reporting an error |
| Qualification.UneditedFormRejected | Controllers/EmployeeController.cs:181 | the add-qualification form submitted unedited fails on the course and the year only, whether the course binds as "" or null |
| JwtTokenService.ValidateJwtSettings | Controllers/JwtTokenService.cs:64-96 | the settings pass exactly when all five checks hold; otherwise the first failing check, in source order, decides the message |
| JwtTokenService.Construct | Controllers/JwtTokenService.cs:17-23 | a null configuration throws `ArgumentNullException`; construction succeeds exactly on valid settings and keeps the configuration; otherwise it throws the settings check's exception |
| JwtTokenService.FoldAscii | Controllers/ReportsController.cs:28 | lower-case ASCII letters map to their upper-case letters, every other character to itself, and nothing maps to a lower-case ASCII letter |
| JwtTokenService.FindFirst | Controllers/ReportsController.cs:28 | no value exactly when no claim's type matches ignoring case; otherwise the value of the first claim whose type matches |
| JwtTokenService.UpperAscii | Controllers/ReportsController.cs:28 | each character of the result is the ASCII upper-case form of the input's character at the same position |
| JwtTokenService.UpperAsciiSameClaimType | Controllers/ReportsController.cs:28 | a claim type written in capitals matches the original type |
| JwtTokenService.FindFirstIgnoresCase | Controllers/ReportsController.cs:28 | "SUB" is found as `sub`, the first of "Jti" and "JTI" is found as `jti`, and `sub` is not found as `jti` |
| JwtTokenService.GenerateToken | Controllers/JwtTokenService.cs:25-62 | a null user throws first; a key under 32 UTF-8 bytes throws the key-length error; a token carries the configured key, issuer and audience, and expires the parsed number of minutes after now |
| JwtTokenService.IssuedTokenClaims | Controllers/JwtTokenService.cs:31-37 | an issued token has exactly four claims of four distinct types; sub and name identifier carry the user id, email carries the email or "", jti the fresh id |
| JwtTokenService.UserClaimsFacts | Controllers/JwtTokenService.cs:31-37 | the claim list has four claims of four distinct types, and looking up each type gives the user id, the email or "", and the fresh id |
| JwtTokenService.UserClaimTypes | Controllers/JwtTokenService.cs:31-37 | the claim list has four claims whose types are exactly sub, email, jti and the name identifier |
| JwtTokenService.UserClaimLookups | Controllers/JwtTokenService.cs:31-37 | looking up sub and the name identifier gives the user id, email gives the email or "", and jti the fresh id |
| JwtTokenService.UserClaimLookupsFirstHalf | Controllers/JwtTokenService.cs:33-34 | looking up sub gives the user id and email gives the email or "" |
| JwtTokenService.UserClaimLookupsSecondHalf | Controllers/JwtTokenService.cs:35-36 | looking up jti gives the fresh id and the name identifier gives the user id |
| JwtTokenService.IssuedTokenExpiresLater | Controllers/JwtTokenService.cs:55 | under valid settings, the expiry is the configured minutes after now, hence strictly later |
| JwtTokenService.ConstructedServiceFailsOnlyOnKeyLength | Controllers/JwtTokenService.cs:42-55 | once constructed, and for any clock at most 2^31 - 1 minutes before `DateTime.MaxValue` (8 December 5916), generation fails only, and exactly, when the key is under 32 bytes |
| JwtTokenService.ShortKeyPassesConstruction | Controllers/JwtTokenService.cs:73-77 | construction accepts a one-character key that generation then rejects |
| JwtTokenService.OneCharacterKeySettingsValid | Controllers/JwtTokenService.cs:73-77 | settings with the key "k", an issuer, an audience and expiry "60" pass all five checks |
| JwtTokenService.SixtyMinutesValid | Controllers/JwtTokenService.cs:91 | an expiry of "60" is a positive `int` |
| JwtTokenService.KeyRuleCountsBytes | Controllers/JwtTokenService.cs:40-42 | eleven euro signs meet the 32-byte rule; thirty-one ASCII characters do not |
| JwtTokenService.BadExpiriesRejected | Controllers/JwtTokenService.cs:91-95 | an expiry of "0", "-5", "abc", "" or missing fails construction with the expiry message |
| JwtTokenService.InvalidExpiryRejected | Controllers/JwtTokenService.cs:91-95 | with key, issuer and audience present, any expiry that is not a positive `int` fails construction with the expiry message |
| JwtTokenService.SampleExpiriesInvalid | Controllers/JwtTokenService.cs:91 | "0", "-5", "abc", "" and a missing value are not positive integers |
| JwtTokenService.ZeroExpiryInvalid | Controllers/JwtTokenService.cs:91 | "0" parses but is not positive |
| JwtTokenService.NegativeExpiryInvalid | Controllers/JwtTokenService.cs:91 | "-5" parses but is not positive |
| JwtTokenService.TextExpiryInvalid | Controllers/JwtTokenService.cs:91 | "abc" does not parse |
| JwtTokenService.EmptyExpiryInvalid | Controllers/JwtTokenService.cs:91 | "" does not parse |
| AuthController.Descriptions | Controllers/AuthController.cs:69 | the error list is the store's descriptions, one per error, in order |
| AuthController.Register | Controllers/AuthController.cs:39-78 | an invalid body gets 400 with its errors and no store call; a valid one creates exactly one user, named by its email, with the trimmed full name; a store failure gets 400 with the store's descriptions; success is 200 with a message and never a token |
| AuthController.RegistrationFailuresIndistinguishable | Controllers/AuthController.cs:62-71 | store failures with the same descriptions get identical responses, whatever their codes |
| AuthController.Login | Controllers/AuthController.cs:87-140 | an invalid body gets 400 and no lookup; a valid one makes at most three calls: the lookup, the password check of the user found without lockout, and the token service only after a successful check; an unknown email gets 401 after the lookup alone, a rejected password 401 after the lookup and the check; 200 exactly when the body is valid, the user exists, the password check succeeds and generation succeeds, and it carries that token and the user id; 500 exactly when generation fails |
| AuthController.LoginTokenOnlyAfterPasswordCheck | Controllers/AuthController.cs:112-124 | in any login trace, no password check enables lockout, and a token request occurs only as the third call, right after a successful check of the same user |
| AuthController.LoginFailuresIndistinguishable | Controllers/AuthController.cs:102-120 | an unknown email and a wrong password give the same 401 response |
| AuthController.LoginTokenNamesUser | Controllers/AuthController.cs:124-130 | the token returned at login has the returned user id as its subject and name identifier |
| AuthController.RegisterRequest | Program.cs:68 | with invalid JWT settings every registration request is an unhandled 500 with no store call; otherwise it is `Register` |
| AuthController.LoginRequest | Program.cs:68 | with invalid JWT settings every login request is an unhandled 500 with no store call; otherwise it is `Login` with the constructed service |
| ReportsController.CallerIdIgnoresCase | Controllers/ReportsController.cs:28 | a first claim whose type is the name identifier in any letter case, capitals included, names the caller |
| ReportsController.FindOwned | Controllers/ReportsController.cs:157-159 | a report is found exactly when the id exists and belongs to the caller |
| ReportsController.OwnedIdsFrom | Controllers/ReportsController.cs:35-36 | the caller's report ids from k on, all of them and only they, strictly ascending |
| ReportsController.ListOwned | Controllers/ReportsController.cs:35-45 | the listing holds every report of the caller and nothing else, as copies of the stored rows, without duplicates |
| ReportsController.GetReports | Controllers/ReportsController.cs:26-49 | an authenticated principal without a name-identifier claim gets 401; otherwise 200 with exactly the caller's reports; the table is unchanged |
| ReportsController.GetReport | Controllers/ReportsController.cs:52-81 | an authenticated principal without a name-identifier claim gets 401; the caller's own report gives 200 with its copy; any other id gives 404; the table is unchanged |
| ReportsController.CreateReport | Controllers/ReportsController.cs:84-134 | an invalid body gives 400, and then an authenticated principal without a name-identifier claim gets 401, both before any write; a failed save gives 500 with the table unchanged; 201 exactly otherwise, adding one row with the next id, the caller as owner and the clock reading |
| ReportsController.UpdateReport | Controllers/ReportsController.cs:137-182 | 204 exactly when the body is valid, the caller owns the report and the save succeeds; then only that row's title and description change; a failed save of an owned report gives 500 with the update message; every other outcome leaves the table unchanged |
| ReportsController.DeleteReport | Controllers/ReportsController.cs:185-217 | 204 exactly when the caller owns the report and the save succeeds; then only that row is removed; a failed save of an owned report gives 500 with the delete message; every other outcome leaves the table unchanged |
| ReportsController.ValidPreserved | Controllers/ReportsController.cs:104-112 | every action keeps ids positive, unique, matching their rows and below the identity counter |
| ReportsController.UnauthenticatedChangesNothing | Controllers/ReportsController.cs:97-102 | for a principal without a caller id nothing changes, and the answer is 401 unless a create or update body is already invalid |
| ReportsController.OwnershipInvariant | Controllers/ReportsController.cs:36 | no action reveals, modifies or removes another user's report; no report changes owner; new reports belong to the caller |
| ReportsController.ForeignReportLikeMissing | Controllers/ReportsController.cs:157-165 | reading, updating or deleting another user's report answers as if the id were absent, and changes nothing |
| ReportsController.IssuedTokenIdentifiesOwner | Controllers/JwtTokenService.cs:36 | the caller id of an issued token's claims is the user's id, so the token reaches exactly that user's reports |

## Left out

- Signing and serialisation are not modelled: the HMAC-SHA-256 signature, the compact JWT serialisation and the `JwtSecurityTokenHandler`. A token is the record of what would be signed.
- The `[Authorize]` gate on the reports controller (ReportsController.cs:13, enforced by the middleware at Program.cs:89-90) is not modelled. It answers anonymous requests with a bodiless 401 before model binding and before any action runs. The modelled principal is one the gate has admitted, so the actions' own 401 only concerns an authenticated principal without a name-identifier claim.
- The bearer-authentication middleware is not modelled. That includes its validation of issuer, audience, lifetime and key, and its inbound claim-type mapping. A request's principal is given directly as a claim list.
- Logging has no observable effect on responses, and none of the `ILogger` calls is modelled.
- The dependency null checks in the constructors, other than `configuration`, are not modelled (JwtTokenService.cs:20, AuthController.cs:26-29, ReportsController.cs:21-22): dependency injection never passes null. The `configuration` null check (JwtTokenService.cs:19) is modelled.
- Entity Framework, `async`, the SQL Server collation and query translation are not modelled. The report table is an in-memory map, and the save outcome is a parameter.
- The identity store's internals are not modelled: hashing, persistence, normalised lookup, uniqueness and lockout bookkeeping. Its answers are oracle parameters. Only its password policy (Program.cs:36-40) is modelled.
- Culture is assumed invariant for `int.Parse`/`TryParse`, and `NumberFormatInfo` is not modelled.
- Lone UTF-16 surrogates cannot be represented, because a character is a Unicode scalar value.
- JSON binding errors are not modelled: malformed JSON and type mismatches. A missing or `null` property binds to `None`.
- The `[ApiController]` automatic 400 filter is not modelled. It would answer an invalid body before any action runs, with its own problem-details body. The actions' own model-state branches are modelled as written, so the modelled 400 bodies are what the code would produce without that filter.
- The definitions of `CreateReportDto`, `SuccessResponseDto` and `LoginResponseDto` are not modelled. `CreateReportDto` is taken to be a title and description with no validation attributes, so the model-state errors of create and update are a parameter.
- ReportsController.GetReports: the source's query has no `OrderBy`, so the row order is up to the database. The model lists in ascending id order, and the contract states membership, not a particular order.
- ReportsController.CreateReport: identity-column gaps after a failed insert are not modelled. A failed save leaves the counter unchanged.
- `EmployeeController` and the MVC views are not part of the core. Only the add-qualification form's initial value (EmployeeController.cs:181) is used.
- JwtTokenService.ConstructedServiceFailsOnlyOnKeyLength: the clock is bounded by `LatestSafeNow`, 2^31 - 1 minutes before `DateTime.MaxValue` (8 December 5916), because an expiry added past `DateTime.MaxValue` throws.
- Exceptions from the identity store and from report reads are not modelled. The code does not catch exceptions from `CreateAsync` (AuthController.cs:61), `FindByEmailAsync` (AuthController.cs:102), `CheckPasswordSignInAsync` (AuthController.cs:112) or the report queries (ReportsController.cs:45, 71, 159, 196). Such an exception would surface as an unhandled 500. The oracles and the table always answer. Only the saves, which the code does catch, can fail.
- `decimal` limits are not modelled. `Decimals.Decimal` has an unbounded integer mantissa and scale, where .NET's `decimal` has a 96-bit mantissa and a scale of at most 28. Binding a value outside that range is a JSON binding error, which is left out above.
- JwtTokenService.FindFirst: the case-insensitive comparison folds ASCII letters only. `StringComparison.OrdinalIgnoreCase` also folds other letters by their simple upper-case mapping. The claim types compared here are all ASCII.

=== FILE: auth_controller.dfy ===
/** `AuthController`: registration and login as total functions from the
    request body, the identity store's answers and the token service's
    result to a response.  The store is a set of oracles (functions the
    caller supplies); each outcome also records the calls made to the store
    and to the token service, in order, so that "the store is not called"
    and "the token is issued only after the password check" can be stated. */
module AuthController {
  import opened Wrappers
  import opened Strings
  import opened Http
  import opened Identity
  import RegisterModel
  import LoginModel
  import opened Time
  import Jwt = JwtTokenService

  datatype Body =
    | Error(error: ErrorResponseDto)
    /** `SuccessResponseDto` */
    | Message(message: string)
    /** `LoginResponseDto` */
    | LoginSuccess(token: Jwt.Token, userId: string)
    /** An exception the action does not catch; the framework answers. */
    | Unhandled

  datatype Response = Response(status: int, body: Body)

  datatype Call =
    | CreateUser(user: ApplicationUser, password: string)
    | FindByEmail(email: string)
    | CheckPassword(user: ApplicationUser, password: string, lockoutOnFailure: bool)
    | GenerateToken(user: ApplicationUser)

  datatype Outcome = Outcome(response: Response, calls: seq<Call>)

  const InvalidRegistrationMessage := "Invalid registration data"
  const RegistrationFailedMessage := "Registration failed"
  const RegisteredMessage := "User registered successfully"
  const InvalidLoginMessage := "Invalid login data"
  const InvalidCredentialsMessage := "Invalid credentials"
  const LoginErrorMessage := "An error occurred during login"

  /** The descriptions of the store's errors, in the store's order. */
  function Descriptions(errs: seq<IdentityError>): (ds: seq<string>)
    ensures |ds| == |errs|
    ensures forall i | 0 <= i < |errs| :: ds[i] == errs[i].description
  {
    seq(|errs|, i requires 0 <= i < |errs| => errs[i].description)
  }

  // ---- Register -------------------------------------------------------------

  /** `Register(model)`.  `newUserId` is the GUID the new `ApplicationUser`
      receives; `create` answers `UserManager.CreateAsync`. */
  function Register(model: RegisterModel.RegisterDto, newUserId: string,
                    create: (ApplicationUser, string) -> IdentityResult): (o: Outcome)
    // An invalid body is answered from the model state; the store is not called.
    ensures !RegisterModel.IsValid(model) ==>
      && o.response == Response(BadRequest, Error(ErrorResponseDto(InvalidRegistrationMessage, RegisterModel.Errors(model))))
      && o.calls == []
    // A valid body creates exactly one user, named by its email.
    ensures RegisterModel.IsValid(model) ==>
      && |o.calls| == 1 && o.calls[0].CreateUser?
      && o.calls[0].user.userName == o.calls[0].user.email == model.email
      && o.calls[0].user.fullName == Some(Trim(model.fullName.value))
      && o.calls[0].password == model.password.value
    // Every creation failure gets the same answer, carrying the store's descriptions.
    ensures RegisterModel.IsValid(model) && create(o.calls[0].user, o.calls[0].password).Failed? ==>
      o.response == Response(BadRequest, Error(ErrorResponseDto(RegistrationFailedMessage,
        Descriptions(create(o.calls[0].user, o.calls[0].password).errors))))
    // Success is a plain acknowledgement: no token is issued at registration.
    ensures o.response.status == Ok <==>
      RegisterModel.IsValid(model) && create(o.calls[0].user, o.calls[0].password) == Succeeded
    ensures o.response.status == Ok ==> o.response.body == Message(RegisteredMessage)
    ensures !o.response.body.LoginSuccess?
  {
    if !RegisterModel.IsValid(model) then
      Outcome(Response(BadRequest, Error(ErrorResponseDto(InvalidRegistrationMessage, RegisterModel.Errors(model)))), [])
    else
      var email := model.email.value;
      var user := ApplicationUser(newUserId, Some(email), Some(email), Some(Trim(model.fullName.value)));
      var password := model.password.value;
      var calls := [CreateUser(user, password)];
      match create(user, password)
      case Failed(errs) =>
        Outcome(Response(BadRequest, Error(ErrorResponseDto(RegistrationFailedMessage, Descriptions(errs)))), calls)
      case Succeeded =>
        Outcome(Response(Ok, Message(RegisteredMessage)), calls)
  }

  /** A duplicate email and any other creation failure are told apart only
      by the descriptions the store supplies: the status, the message and
      the response shape are the same, and equal descriptions give equal
      responses whatever the error codes. */
  lemma RegistrationFailuresIndistinguishable(
    model: RegisterModel.RegisterDto, newUserId: string,
    create1: (ApplicationUser, string) -> IdentityResult,
    create2: (ApplicationUser, string) -> IdentityResult)
    requires RegisterModel.IsValid(model)
    requires var u := Register(model, newUserId, create1).calls[0];
      create1(u.user, u.password).Failed? && create2(u.user, u.password).Failed?
      && Descriptions(create1(u.user, u.password).errors) == Descriptions(create2(u.user, u.password).errors)
    ensures Register(model, newUserId, create1).response == Register(model, newUserId, create2).response
  {
  }

  // ---- Login ----------------------------------------------------------------

  /** `Login(model)`.  `find` answers `FindByEmailAsync`, `check` answers
      `CheckPasswordSignInAsync`; `svc`, `now` and `jti` are what the token
      service works with. */
  function Login(model: LoginModel.LoginDto,
                 find: string -> Option<ApplicationUser>,
                 check: (ApplicationUser, string, bool) -> SignInResult,
                 svc: Jwt.Service, now: DateTime, jti: string): (o: Outcome)
    // An invalid body is answered from the model state; no user is looked up.
    ensures !LoginModel.IsValid(model) ==>
      && o.response == Response(BadRequest, Error(ErrorResponseDto(InvalidLoginMessage, LoginModel.Errors(model))))
      && o.calls == []
    // A valid body makes at most three calls: the lookup, the password check
    // of the user found (never counting towards lockout), and the token
    // service after a successful check.
    ensures LoginModel.IsValid(model) ==>
      1 <= |o.calls| <= 3 && o.calls[0] == FindByEmail(model.email.value)
    ensures |o.calls| >= 2 ==>
      && o.calls[1].CheckPassword?
      && find(model.email.value) == Some(o.calls[1].user)
      && o.calls[1].password == model.password.value
      && !o.calls[1].lockoutOnFailure
    ensures |o.calls| == 3 ==>
      && o.calls[2] == GenerateToken(o.calls[1].user)
      && check(o.calls[1].user, model.password.value, false) == SignInSucceeded
    // An unknown email, or a password the store does not accept, is 401.
    ensures LoginModel.IsValid(model) && find(model.email.value).None? ==>
      o == Outcome(Response(Unauthorized, Error(ErrorResponseDto(InvalidCredentialsMessage, []))),
                   [FindByEmail(model.email.value)])
    ensures
      && LoginModel.IsValid(model)
      && find(model.email.value).Some?
      && check(find(model.email.value).value, model.password.value, false) != SignInSucceeded
      ==>
      o == Outcome(Response(Unauthorized, Error(ErrorResponseDto(InvalidCredentialsMessage, []))),
                   [FindByEmail(model.email.value),
                    CheckPassword(find(model.email.value).value, model.password.value, false)])
    // Correct credentials succeed unless the token service fails.
    ensures o.response.status == Ok <==>
      && LoginModel.IsValid(model)
      && find(model.email.value).Some?
      && check(find(model.email.value).value, model.password.value, false) == SignInSucceeded
      && Jwt.GenerateToken(svc, find(model.email.value), now, jti).Success?
    // Success returns the token together with the user's id.
    ensures o.response.status == Ok ==>
      && |o.calls| == 3 && o.calls[2].GenerateToken?
      && var u := o.calls[2].user;
         && Jwt.GenerateToken(svc, Some(u), now, jti).Success?
         && o.response.body == LoginSuccess(Jwt.GenerateToken(svc, Some(u), now, jti).value, u.id)
    // A failure of the token service is a generic server error.
    ensures o.response.status == InternalServerError <==>
      |o.calls| == 3 && o.calls[2].GenerateToken? && Jwt.GenerateToken(svc, Some(o.calls[2].user), now, jti).Failure?
    ensures o.response.status == InternalServerError ==>
      o.response.body == Error(ErrorResponseDto(LoginErrorMessage, []))
  {
    if !LoginModel.IsValid(model) then
      Outcome(Response(BadRequest, Error(ErrorResponseDto(InvalidLoginMessage, LoginModel.Errors(model)))), [])
    else
      var email := model.email.value;
      var password := model.password.value;
      match find(email)
      case None =>
        Outcome(Response(Unauthorized, Error(ErrorResponseDto(InvalidCredentialsMessage, []))), [FindByEmail(email)])
      case Some(user) =>
        var calls := [FindByEmail(email), CheckPassword(user, password, false)];
        if check(user, password, false) != SignInSucceeded then
          Outcome(Response(Unauthorized, Error(ErrorResponseDto(InvalidCredentialsMessage, []))), calls)
        else
          match Jwt.GenerateToken(svc, Some(user), now, jti)
          case Failure(_) =>
            Outcome(Response(InternalServerError, Error(ErrorResponseDto(LoginErrorMessage, []))), calls + [GenerateToken(user)])
          case Success(token) =>
            Outcome(Response(Ok, LoginSuccess(token, user.id)), calls + [GenerateToken(user)])
  }

  /** The password check never counts towards lockout, and the token
      service is reached only through a successful password check. */
  lemma {:induction false} LoginTokenOnlyAfterPasswordCheck(
    model: LoginModel.LoginDto,
    find: string -> Option<ApplicationUser>,
    check: (ApplicationUser, string, bool) -> SignInResult,
    svc: Jwt.Service, now: DateTime, jti: string)
    ensures var o := Login(model, find, check, svc, now, jti);
      && (forall i | 0 <= i < |o.calls| :: o.calls[i].CheckPassword? ==> !o.calls[i].lockoutOnFailure)
      && (forall i | 0 <= i < |o.calls| :: o.calls[i].GenerateToken? ==>
            && i == 2 && o.calls[1] == CheckPassword(o.calls[i].user, model.password.value, false)
            && check(o.calls[i].user, model.password.value, false) == SignInSucceeded)
  {
    var o := Login(model, find, check, svc, now, jti);
    assert |o.calls| <= 3;
    assert |o.calls| >= 1 ==> !o.calls[0].CheckPassword? && !o.calls[0].GenerateToken?;
    assert |o.calls| >= 2 ==> !o.calls[1].GenerateToken?;
    assert |o.calls| == 3 ==> !o.calls[2].CheckPassword?;
  }

  /** An unknown email and a wrong password produce the same response. */
  lemma LoginFailuresIndistinguishable(
    model: LoginModel.LoginDto,
    findNone: string -> Option<ApplicationUser>,
    findSome: string -> Option<ApplicationUser>,
    check: (ApplicationUser, string, bool) -> SignInResult,
    svc: Jwt.Service, now: DateTime, jti: string)
    requires LoginModel.IsValid(model)
    requires findNone(model.email.value).None?
    requires findSome(model.email.value).Some?
    requires check(findSome(model.email.value).value, model.password.value, false) != SignInSucceeded
    ensures Login(model, findNone, check, svc, now, jti).response
         == Login(model, findSome, check, svc, now, jti).response
    ensures Login(model, findNone, check, svc, now, jti).response
         == Response(Unauthorized, Error(ErrorResponseDto(InvalidCredentialsMessage, [])))
  {
  }

  /** A successful login hands out a token whose subject is the returned
      user id. */
  lemma LoginTokenNamesUser(
    model: LoginModel.LoginDto,
    find: string -> Option<ApplicationUser>,
    check: (ApplicationUser, string, bool) -> SignInResult,
    svc: Jwt.Service, now: DateTime, jti: string)
    requires Login(model, find, check, svc, now, jti).response.status == Ok
    ensures var b := Login(model, find, check, svc, now, jti).response.body;
      && b.LoginSuccess?
      && Jwt.FindFirst(b.token.claims, Jwt.SubClaim) == Some(b.userId)
      && Jwt.FindFirst(b.token.claims, Jwt.NameIdentifierClaim) == Some(b.userId)
  {
    var o := Login(model, find, check, svc, now, jti);
    Jwt.IssuedTokenClaims(svc, o.calls[2].user, now, jti);
  }

  // ---- Controller activation -----------------------------------------------

  /** The token service is registered per request, so its constructor runs
      whenever an `AuthController` is created: invalid settings make every
      request fail with an exception the action never sees, before any body
      is examined. */
  function RegisterRequest(configuration: Jwt.Configuration, model: RegisterModel.RegisterDto,
                           newUserId: string, create: (ApplicationUser, string) -> IdentityResult): (o: Outcome)
    ensures !Jwt.SettingsValid(configuration) ==> o == Outcome(Response(InternalServerError, Unhandled), [])
    ensures Jwt.SettingsValid(configuration) ==> o == Register(model, newUserId, create)
  {
    match Jwt.Construct(Some(configuration))
    case Failure(_) => Outcome(Response(InternalServerError, Unhandled), [])
    case Success(_) => Register(model, newUserId, create)
  }

  function LoginRequest(configuration: Jwt.Configuration, model: LoginModel.LoginDto,
                        find: string -> Option<ApplicationUser>,
                        check: (ApplicationUser, string, bool) -> SignInResult,
                        now: DateTime, jti: string): (o: Outcome)
    ensures !Jwt.SettingsValid(configuration) ==> o == Outcome(Response(InternalServerError, Unhandled), [])
    ensures Jwt.SettingsValid(configuration) ==> o == Login(model, find, check, Jwt.Service(configuration), now, jti)
  {
    match Jwt.Construct(Some(configuration))
    case Failure(_) => Outcome(Response(InternalServerError, Unhandled), [])
    case Success(svc) => Login(model, find, check, svc, now, jti)
  }
}

=== FILE: data_annotations.dfy ===
/** The `System.ComponentModel.DataAnnotations` attributes the models use,
    as predicates over the bound property value.  A missing JSON property or
    a JSON `null` binds to `None`.  Every attribute other than `[Required]`
    passes a null value, leaving absence to `[Required]`. */
module DataAnnotations {
  import opened Wrappers
  import opened Strings
  import Decimals
  import Int32Parsing

  /** `[Required]` on a string: rejects null, empty and white-space-only. */
  predicate Required(v: Option<string>) {
    !IsNullOrWhiteSpace(v)
  }

  /** `[StringLength(max, MinimumLength = min)]`: bounds on `string.Length`,
      which counts UTF-16 code units. */
  predicate StringLength(v: Option<string>, max: nat, min: nat) {
    v.None? || min <= Utf16Length(v.value) <= max
  }

  /** `[EmailAddress]`: exactly one `@`, neither the first nor the last
      character. */
  predicate EmailAddress(v: Option<string>) {
    v.None? ||
      var s := v.value;
      var k := IndexOf(s, '@');
      k > 0 && k != |s| - 1 && k == LastIndexOf(s, '@')
  }

  /** The email rule restated without the index arithmetic. */
  lemma EmailAddressIff(s: string)
    ensures EmailAddress(Some(s)) <==>
      exists k | 0 < k < |s| - 1 :: s[k] == '@' && forall j | 0 <= j < |s| && j != k :: s[j] != '@'
  {
    var k := IndexOf(s, '@');
    if EmailAddress(Some(s)) {
      assert forall j | 0 <= j < |s| && j != k :: s[j] != '@';
    }
  }

  /** `[Range(min, max)]` on an `int` property: inclusive bounds. */
  predicate RangeInt(v: int, min: int, max: int) {
    min <= v <= max
  }

  /** What a validator does with a value: accept it, reject it, or throw. */
  datatype Verdict = Valid | Invalid | Throws

  /** `[Range(int min, int max)]` on a `decimal` property: the value is first
      converted with `Convert.ToInt32`, whose `OverflowException` the
      attribute does not catch.  The interval it accepts is stated by
      `RangeDecimalAcceptsExactRange`. */
  function RangeDecimal(v: Decimals.Decimal, min: int, max: int): (r: Verdict)
    ensures r == Throws <==> Decimals.ToInt32(v).Failure?
    ensures r == Valid <==>
      Decimals.ToInt32(v).Success? && min <= Decimals.RoundHalfEven(v) <= max
  {
    match Decimals.ToInt32(v)
    case Failure(_) => Throws
    case Success(n) => if min <= n <= max then Valid else Invalid
  }

  /** On the values that are exactly within the bounds the rounding changes
      nothing: they are accepted. */
  lemma RangeDecimalAcceptsExactRange(v: Decimals.Decimal, min: int, max: int)
    requires Int32Parsing.Int32Min <= min && max <= Int32Parsing.Int32Max
    requires min * Decimals.Pow10(v.scale) <= v.units <= max * Decimals.Pow10(v.scale)
    ensures RangeDecimal(v, min, max) == Valid
  {
    Decimals.RoundWithinBounds(v, min, max);
  }
}

=== FILE: decimals.dfy ===
/** `System.Decimal` as an exact scaled integer, and the conversion
    `Convert.ToInt32(decimal)` that `RangeAttribute` applies before it
    compares against integer bounds: round to the nearest integer, ties to
    the even neighbour, then throw `OverflowException` outside 32 bits. */
module Decimals {
  import opened Wrappers
  import Int32Parsing

  /** The value `units / 10^scale`. */
  datatype Decimal = Decimal(units: int, scale: nat)

  /** The scale divisor `10^n`: a helper for the rounding below, not a
      result of its own. */
  function Pow10(n: nat): (p: nat)
    ensures p >= 1
  {
    if n == 0 then 1 else 10 * Pow10(n - 1)
  }

  /** `decimal.Round(d, 0)` with the default `MidpointRounding.ToEven`. */
  function RoundHalfEven(d: Decimal): int {
    var p := Pow10(d.scale);
    var q := d.units / p;
    var r := d.units % p;
    if 2 * r < p then q
    else if 2 * r > p then q + 1
    else if q % 2 == 0 then q
    else q + 1
  }

  /** The rounded value is a nearest integer, and on a tie it is the even one. */
  lemma RoundHalfEvenIsNearest(d: Decimal)
    ensures var n, p := RoundHalfEven(d), Pow10(d.scale) as int;
      && -p <= 2 * (d.units - n * p) <= p
      && (2 * (d.units - n * p) == p || 2 * (d.units - n * p) == -p ==> n % 2 == 0)
  {
    var p := Pow10(d.scale);
    var q := d.units / p;
    var r := d.units % p;
    assert d.units == q * p + r;
    var n := RoundHalfEven(d);
    if 2 * r > p || (2 * r == p && q % 2 != 0) {
      assert n == q + 1;
      assert d.units - n * p == r - p;
    } else {
      assert n == q;
      assert d.units - n * p == r;
    }
  }

  /** Nothing else is a nearest integer with the even tie rule: the rounding
      is the only such choice. */
  lemma RoundHalfEvenUnique(d: Decimal, m: int)
    requires var p := Pow10(d.scale) as int;
      && -p <= 2 * (d.units - m * p) <= p
      && (2 * (d.units - m * p) == p || 2 * (d.units - m * p) == -p ==> m % 2 == 0)
    ensures m == RoundHalfEven(d)
  {
    RoundHalfEvenIsNearest(d);
    NearestUnique(d.units, Pow10(d.scale), RoundHalfEven(d), m);
  }

  /** Two integers that both lie within half of `p` of `u` (in units of `p`),
      and are even when exactly half away, coincide. */
  lemma NearestUnique(u: int, p: int, n: int, m: int)
    requires p >= 1
    requires -p <= 2 * (u - n * p) <= p
    requires 2 * (u - n * p) == p || 2 * (u - n * p) == -p ==> n % 2 == 0
    requires -p <= 2 * (u - m * p) <= p
    requires 2 * (u - m * p) == p || 2 * (u - m * p) == -p ==> m % 2 == 0
    ensures n == m
  {
    var k := n - m;
    var en, em := u - n * p, u - m * p;
    assert em - en == k * p by {
      assert n * p - m * p == (n - m) * p;
    }
    FactorBound(k, p);
  }

  lemma FactorBound(k: int, p: int)
    requires p >= 1
    requires -p <= k * p <= p
    ensures -1 <= k <= 1
  {
  }

  /** Rounding keeps a value that lies between two integers between them. */
  lemma RoundWithinBounds(d: Decimal, lo: int, hi: int)
    requires lo * Pow10(d.scale) <= d.units <= hi * Pow10(d.scale)
    ensures lo <= RoundHalfEven(d) <= hi
  {
    RoundHalfEvenIsNearest(d);
    NearestWithinBounds(d.units, Pow10(d.scale), RoundHalfEven(d), lo, hi);
  }

  lemma NearestWithinBounds(u: int, p: int, n: int, lo: int, hi: int)
    requires p >= 1
    requires -p <= 2 * (u - n * p) <= p
    requires lo * p <= u <= hi * p
    ensures lo <= n <= hi
  {
    if n > hi {
      assert (hi + 1) * p == hi * p + p;
      MulMonotone(hi + 1, n, p);
    } else if n < lo {
      assert (lo - 1) * p == lo * p - p;
      MulMonotone(n, lo - 1, p);
    }
  }

  /** With even bounds, an integer chosen nearest to `u / p` (ties to even)
      lies between the bounds exactly when `u / p` lies within half a unit
      of them, both ends included. */
  lemma NearestInEvenRange(u: int, p: int, n: int, lo: int, hi: int)
    requires p >= 1 && lo % 2 == 0 && hi % 2 == 0
    requires -p <= 2 * (u - n * p) <= p
    requires 2 * (u - n * p) == p || 2 * (u - n * p) == -p ==> n % 2 == 0
    ensures lo <= n <= hi <==> (2 * lo - 1) * p <= 2 * u <= (2 * hi + 1) * p
  {
    if lo <= n <= hi {
      MulMonotone(lo, n, p);
      MulMonotone(n, hi, p);
      assert (2 * lo - 1) * p == 2 * (lo * p) - p;
      assert (2 * hi + 1) * p == 2 * (hi * p) + p;
    } else if n > hi {
      NearestAbove(u, p, n, hi);
    } else {
      NearestBelow(u, p, n, lo);
    }
  }

  /** A nearest integer (ties to even) above an even bound `hi` means the
      value itself lies more than half a unit above `hi`. */
  lemma NearestAbove(u: int, p: int, n: int, hi: int)
    requires p >= 1 && hi % 2 == 0 && n > hi
    requires -p <= 2 * (u - n * p) <= p
    requires 2 * (u - n * p) == p || 2 * (u - n * p) == -p ==> n % 2 == 0
    ensures 2 * u > (2 * hi + 1) * p
  {
    var np, hp := n * p, hi * p;
    assert (2 * hi + 1) * p == 2 * hp + p;
    if n == hi + 1 {
      assert np == hp + p;
    } else {
      MulMonotone(hi + 2, n, p);
      assert (hi + 2) * p == hp + 2 * p;
    }
  }

  /** The mirror image of `NearestAbove`. */
  lemma NearestBelow(u: int, p: int, n: int, lo: int)
    requires p >= 1 && lo % 2 == 0 && n < lo
    requires -p <= 2 * (u - n * p) <= p
    requires 2 * (u - n * p) == p || 2 * (u - n * p) == -p ==> n % 2 == 0
    ensures 2 * u < (2 * lo - 1) * p
  {
    var np, lp := n * p, lo * p;
    assert (2 * lo - 1) * p == 2 * lp - p;
    if n == lo - 1 {
      assert np == lp - p;
    } else {
      MulMonotone(n, lo - 2, p);
      assert (lo - 2) * p == lp - 2 * p;
    }
  }

  lemma MulMonotone(a: int, b: int, p: int)
    requires a <= b && p >= 0
    ensures a * p <= b * p
  {
    assert b * p - a * p == (b - a) * p;
  }

  datatype ConversionError = OverflowException

  /** `Convert.ToInt32(decimal)`.  What the rounding means is stated by
      `RoundHalfEvenIsNearest` and `RoundHalfEvenUnique`. */
  function ToInt32(d: Decimal): (r: Result<int, ConversionError>)
    ensures r.Success? ==> r.value == RoundHalfEven(d)
    ensures r.Success? <==> Int32Parsing.Int32Min <= RoundHalfEven(d) <= Int32Parsing.Int32Max
  {
    var n := RoundHalfEven(d);
    if Int32Parsing.Int32Min <= n <= Int32Parsing.Int32Max then Success(n)
    else Failure(OverflowException)
  }
}

=== FILE: http.dfy ===
/** Response shapes shared by the controllers. */
module Http {

  const Ok: int := 200
  const Created: int := 201
  const NoContent: int := 204
  const BadRequest: int := 400
  const Unauthorized: int := 401
  const NotFound: int := 404
  const InternalServerError: int := 500

  /** `ErrorResponseDto`; `errors` defaults to empty when not set. */
  datatype ErrorResponseDto = ErrorResponseDto(message: string, errors: seq<string>)
}

=== FILE: identity.dfy ===
/** The identity store's shapes and the password policy it enforces when a
    user is created (`options.Password` in Program.cs).  The store itself —
    hashing, persistence, normalised-email lookup, uniqueness — is outside
    the model and appears only as oracle answers. */
module Identity {
  import opened Wrappers
  import opened Strings

  /** `ApplicationUser`: an `IdentityUser` (whose `Id` the identity library
      sets to a fresh GUID string) with an optional full name. */
  datatype ApplicationUser = ApplicationUser(
    id: string,
    userName: Option<string>,
    email: Option<string>,
    fullName: Option<string>)

  datatype IdentityError = IdentityError(code: string, description: string)

  /** `IdentityResult` */
  datatype IdentityResult = Succeeded | Failed(errors: seq<IdentityError>)

  /** `SignInResult` of `CheckPasswordSignInAsync`. */
  datatype SignInResult = SignInSucceeded | SignInFailed | LockedOut | NotAllowed

  // Password options configured for the store.
  const RequireDigit: bool := true
  const RequireLowercase: bool := true
  const RequireUppercase: bool := true
  const RequireNonAlphanumeric: bool := true
  const RequiredLength: nat := 8
  /** Left at the library default. */
  const RequiredUniqueChars: nat := 1

  /** The password validator's own character classes are ASCII-only. */
  predicate IsDigit(c: char) { '0' <= c <= '9' }
  predicate IsLower(c: char) { 'a' <= c <= 'z' }
  predicate IsUpper(c: char) { 'A' <= c <= 'Z' }
  predicate IsLetterOrDigit(c: char) { IsUpper(c) || IsLower(c) || IsDigit(c) }

  /** `s.Distinct().Count()` */
  function DistinctCount(s: string): (n: nat)
    ensures n == 0 <==> |s| == 0
  {
    var cs := set i | 0 <= i < |s| :: s[i];
    assert |s| > 0 ==> s[0] in cs;
    |cs|
  }

  const PasswordTooShort := IdentityError("PasswordTooShort", "Passwords must be at least 8 characters.")
  const PasswordRequiresNonAlphanumeric := IdentityError("PasswordRequiresNonAlphanumeric", "Passwords must have at least one non alphanumeric character.")
  const PasswordRequiresDigit := IdentityError("PasswordRequiresDigit", "Passwords must have at least one digit ('0'-'9').")
  const PasswordRequiresLower := IdentityError("PasswordRequiresLower", "Passwords must have at least one lowercase ('a'-'z').")
  const PasswordRequiresUpper := IdentityError("PasswordRequiresUpper", "Passwords must have at least one uppercase ('A'-'Z').")
  const PasswordRequiresUniqueChars := IdentityError("PasswordRequiresUniqueChars", "Passwords must use at least 1 different characters.")

  /** The errors the store's password validator reports, in its order. */
  function PasswordErrors(p: string): (errs: seq<IdentityError>)
    ensures PasswordRequiresDigit in errs <==> forall i | 0 <= i < |p| :: !IsDigit(p[i])
    ensures PasswordTooShort in errs <==> AllWhiteSpace(p) || Utf16Length(p) < RequiredLength
    ensures |errs| == 0 <==>
      && !AllWhiteSpace(p) && Utf16Length(p) >= RequiredLength
      && (exists i | 0 <= i < |p| :: !IsLetterOrDigit(p[i]))
      && (exists i | 0 <= i < |p| :: IsDigit(p[i]))
      && (exists i | 0 <= i < |p| :: IsLower(p[i]))
      && (exists i | 0 <= i < |p| :: IsUpper(p[i]))
  {
    var hasNonAlphanumeric := exists i | 0 <= i < |p| :: !IsLetterOrDigit(p[i]);
    (if AllWhiteSpace(p) || Utf16Length(p) < RequiredLength then [PasswordTooShort] else [])
    + (if RequireNonAlphanumeric && !hasNonAlphanumeric then [PasswordRequiresNonAlphanumeric] else [])
    + (if RequireDigit && forall i | 0 <= i < |p| :: !IsDigit(p[i]) then [PasswordRequiresDigit] else [])
    + (if RequireLowercase && forall i | 0 <= i < |p| :: !IsLower(p[i]) then [PasswordRequiresLower] else [])
    + (if RequireUppercase && forall i | 0 <= i < |p| :: !IsUpper(p[i]) then [PasswordRequiresUpper] else [])
    + (if RequiredUniqueChars >= 1 && DistinctCount(p) < RequiredUniqueChars then [PasswordRequiresUniqueChars] else [])
  }
}

=== FILE: int32_parsing.dfy ===
/** `int.TryParse(string, out int)` and `int.Parse(string)` with the default
    `NumberStyles.Integer` and invariant number signs: optional white space,
    an optional `+` or `-`, one or more ASCII digits, optional white space,
    and then nothing but NUL characters.  A well-formed number outside the
    32-bit range is an overflow, not a format error. */
module Int32Parsing {
  import opened Wrappers

  const Int32Min: int := -0x8000_0000
  const Int32Max: int := 0x7FFF_FFFF

  datatype ParseResult = Parsed(value: int) | FormatError | OverflowError

  /** The white space number parsing skips: U+0009..U+000D and U+0020. */
  predicate IsNumberWhite(c: char) {
    c == ' ' || ('\t' <= c <= '\r')
  }

  predicate IsAsciiDigit(c: char) {
    '0' <= c <= '9'
  }

  function DigitValue(c: char): int
    requires IsAsciiDigit(c)
  {
    c as int - '0' as int
  }

  /** Length of the longest prefix of `s` whose characters satisfy `p`. */
  function Span(s: string, p: char -> bool): (n: nat)
    ensures n <= |s|
    ensures forall i | 0 <= i < n :: p(s[i])
    ensures n < |s| ==> !p(s[n])
  {
    if |s| == 0 || !p(s[0]) then 0 else 1 + Span(s[1..], p)
  }

  /** The value of a string of decimal digits, most significant first. */
  function DigitsValue(ds: string): (v: nat)
    requires forall i | 0 <= i < |ds| :: IsAsciiDigit(ds[i])
  {
    if |ds| == 0 then 0
    else DigitsValue(ds[..|ds| - 1]) * 10 + DigitValue(ds[|ds| - 1])
  }

  /** After the digits: white space, then nothing but NUL characters. */
  predicate OnlyTrailing(t: string) {
    var w := Span(t, IsNumberWhite);
    forall i | w <= i < |t| :: t[i] == '\0'
  }

  /** The unsigned part: at least one digit, then `OnlyTrailing`. */
  function ParseMagnitude(u: string): (m: Option<nat>)
    ensures m.Some? ==> |u| > 0 && IsAsciiDigit(u[0])
  {
    var digitCount := Span(u, IsAsciiDigit);
    if digitCount == 0 || !OnlyTrailing(u[digitCount..]) then None
    else Some(DigitsValue(u[..digitCount]))
  }

  function ParseInt32(s: string): (r: ParseResult)
    ensures r.Parsed? ==> Int32Min <= r.value <= Int32Max
    ensures r != FormatError ==> exists i | 0 <= i < |s| :: IsAsciiDigit(s[i])
    ensures |s| == 0 ==> r == FormatError
  {
    var w := Span(s, IsNumberWhite);
    var t := s[w..];
    var signed := |t| > 0 && (t[0] == '-' || t[0] == '+');
    var negative := signed && t[0] == '-';
    var u := if signed then t[1..] else t;
    assert ParseMagnitude(u).Some? ==> IsAsciiDigit(s[w + |t| - |u|]) by {
      if ParseMagnitude(u).Some? {
        assert u[0] == s[w + |t| - |u|];
      }
    }
    match ParseMagnitude(u)
    case None => FormatError
    case Some(m) =>
      var v: int := if negative then 0 - (m as int) else m;
      if Int32Min <= v <= Int32Max then Parsed(v) else OverflowError
  }

  /** `int.TryParse`: `Some` exactly when `int.Parse` would not throw, with
      the same value.  An accepted text holds a digit, and the value fits in
      32 bits. */
  function TryParse(s: string): (r: Option<int>)
    ensures r.Some? ==> Int32Min <= r.value <= Int32Max
    ensures r.Some? ==> exists i | 0 <= i < |s| :: IsAsciiDigit(s[i])
  {
    match ParseInt32(s)
    case Parsed(v) => Some(v)
    case _ => None
  }

  /** The canonical decimal digits of a natural number (no leading zeros). */
  function Digits(n: nat): (ds: string)
    ensures |ds| > 0
    ensures forall i | 0 <= i < |ds| :: IsAsciiDigit(ds[i])
  {
    var last := ['0' + (n % 10) as char];
    if n < 10 then last else Digits(n / 10) + last
  }

  /** `n.ToString()` for a 32-bit value. */
  function Format(n: int): (s: string)
    requires Int32Min <= n <= Int32Max
  {
    if n < 0 then "-" + Digits(-n) else Digits(n)
  }

  lemma {:induction false} DigitsValueOfDigits(n: nat)
    ensures DigitsValue(Digits(n)) == n
  {
    var ds := Digits(n);
    if n >= 10 {
      DigitsValueOfDigits(n / 10);
      assert ds[..|ds| - 1] == Digits(n / 10);
    }
  }

  lemma ParseMagnitudeOfDigits(n: nat)
    ensures ParseMagnitude(Digits(n)) == Some(n)
  {
    var ds := Digits(n);
    SpanAll(ds, IsAsciiDigit);
    DigitsValueOfDigits(n);
    assert ds[..|ds|] == ds;
    assert Span(ds[|ds|..], IsNumberWhite) == 0;
  }

  /** Parsing is the inverse of formatting on the 32-bit range. */
  lemma ParseFormatRoundTrip(n: int)
    requires Int32Min <= n <= Int32Max
    ensures ParseInt32(Format(n)) == Parsed(n)
  {
    ParseFormatTrailingWhite(n, "");
    assert Format(n) + "" == Format(n);
  }

  /** `TryParse` reads back what `ToString` writes. */
  lemma TryParseFormat(n: int)
    requires Int32Min <= n <= Int32Max
    ensures TryParse(Format(n)) == Some(n)
  {
    ParseFormatRoundTrip(n);
  }

  lemma {:induction false} SpanAll(s: string, p: char -> bool)
    requires forall i | 0 <= i < |s| :: p(s[i])
    ensures Span(s, p) == |s|
  {
    if |s| > 0 {
      SpanAll(s[1..], p);
    }
  }

  /** `Span` stops exactly where `p` first fails. */
  lemma {:induction false} SpanOfConcat(a: string, b: string, p: char -> bool)
    requires forall i | 0 <= i < |a| :: p(a[i])
    requires |b| > 0 ==> !p(b[0])
    ensures Span(a + b, p) == |a|
  {
    if |a| == 0 {
      assert a + b == b;
    } else {
      assert (a + b)[1..] == a[1..] + b;
      SpanOfConcat(a[1..], b, p);
    }
  }

  /** Digits followed by white space read back as their value. */
  lemma ParseMagnitudeOfPaddedDigits(n: nat, w: string)
    requires forall i | 0 <= i < |w| :: IsNumberWhite(w[i])
    ensures ParseMagnitude(Digits(n) + w) == Some(n)
  {
    var ds := Digits(n);
    var u := ds + w;
    SpanOfConcat(ds, w, IsAsciiDigit);
    assert u[..|ds|] == ds;
    assert u[|ds|..] == w;
    SpanAll(w, IsNumberWhite);
    DigitsValueOfDigits(n);
  }

  /** White space before a number does not change what `int.Parse` reads. */
  lemma LeadingWhiteIgnored(w: string, t: string)
    requires forall i | 0 <= i < |w| :: IsNumberWhite(w[i])
    requires |t| > 0 ==> !IsNumberWhite(t[0])
    ensures ParseInt32(w + t) == ParseInt32(t)
  {
    SpanOfConcat(w, t, IsNumberWhite);
    assert (w + t)[|w|..] == t;
    assert Span(t, IsNumberWhite) == 0;
    assert t[0..] == t;
  }

  /** White space after a formatted number does not change what it parses to. */
  lemma ParseFormatTrailingWhite(n: int, w: string)
    requires Int32Min <= n <= Int32Max
    requires forall i | 0 <= i < |w| :: IsNumberWhite(w[i])
    ensures ParseInt32(Format(n) + w) == Parsed(n)
  {
    if n < 0 {
      ParseNegativeDigits(-n, w);
    } else {
      ParseNonNegativeDigits(n, w);
    }
  }

  lemma ParseNonNegativeDigits(m: nat, w: string)
    requires m <= Int32Max
    requires forall i | 0 <= i < |w| :: IsNumberWhite(w[i])
    ensures ParseInt32(Digits(m) + w) == Parsed(m)
  {
    var s := Digits(m) + w;
    assert s[0] == Digits(m)[0];
    assert Span(s, IsNumberWhite) == 0;
    assert s[0..] == s;
    ParseMagnitudeOfPaddedDigits(m, w);
  }

  lemma ParseNegativeDigits(m: nat, w: string)
    requires 0 < m <= -Int32Min
    requires forall i | 0 <= i < |w| :: IsNumberWhite(w[i])
    ensures ParseInt32("-" + Digits(m) + w) == Parsed(0 - m)
  {
    var t := Digits(m) + w;
    var s := "-" + Digits(m) + w;
    assert s == "-" + t;
    assert Span(s, IsNumberWhite) == 0;
    assert s[0..] == s;
    assert s[1..] == t;
    ParseMagnitudeOfPaddedDigits(m, w);
  }

  /** `TryParse` accepts every 32-bit value as `ToString` writes it, with any
      number white space before and after. */
  lemma TryParsePaddedFormat(w1: string, n: int, w2: string)
    requires Int32Min <= n <= Int32Max
    requires forall i | 0 <= i < |w1| :: IsNumberWhite(w1[i])
    requires forall i | 0 <= i < |w2| :: IsNumberWhite(w2[i])
    ensures TryParse(w1 + Format(n) + w2) == Some(n)
  {
    var t := Format(n) + w2;
    assert w1 + Format(n) + w2 == w1 + t;
    assert t[0] == Format(n)[0];
    LeadingWhiteIgnored(w1, t);
    ParseFormatTrailingWhite(n, w2);
  }
}

=== FILE: jwt_token_service.dfy ===
/** `JwtTokenService`: the settings check run when the service is
    constructed, and token generation.  A token is the record of what gets
    signed (issuer, audience, claims, expiry, key); HMAC-SHA-256 signing and
    the compact serialisation of RFC 7519 are not modelled.  The clock and
    the fresh GUID for the `jti` claim are parameters. */
module JwtTokenService {
  import opened Wrappers
  import opened Strings
  import opened Int32Parsing
  import opened Time
  import opened Identity

  /** The values under the `JwtSettings` configuration section. */
  datatype JwtSettings = JwtSettings(
    key: Option<string>,
    issuer: Option<string>,
    audience: Option<string>,
    expiryInMinutes: Option<string>)

  /** The application configuration, as far as the service reads it: the
      section may be absent altogether. */
  datatype Configuration = Configuration(jwtSettings: Option<JwtSettings>)

  /** `_configuration["JwtSettings:<name>"]` for each name. */
  function Key(c: Configuration): Option<string> {
    if c.jwtSettings.Some? then c.jwtSettings.value.key else None
  }
  function Issuer(c: Configuration): Option<string> {
    if c.jwtSettings.Some? then c.jwtSettings.value.issuer else None
  }
  function Audience(c: Configuration): Option<string> {
    if c.jwtSettings.Some? then c.jwtSettings.value.audience else None
  }
  function ExpiryInMinutes(c: Configuration): Option<string> {
    if c.jwtSettings.Some? then c.jwtSettings.value.expiryInMinutes else None
  }

  /** The exceptions the service can throw. */
  datatype ServiceError =
    | ArgumentNullException(paramName: string)
    | InvalidOperationException(message: string)
    | FormatException
    | OverflowException
    | ArgumentOutOfRangeException

  const SectionMissingMessage := "JwtSettings section is missing in configuration."
  const KeyRequiredMessage := "JwtSettings:Key is required."
  const IssuerRequiredMessage := "JwtSettings:Issuer is required."
  const AudienceRequiredMessage := "JwtSettings:Audience is required."
  const ExpiryInvalidMessage := "JwtSettings:ExpiryInMinutes must be a positive integer."
  const KeyTooShortMessage := "JWT key must be at least 32 bytes for HS256."

  /** HS256 needs a key of at least 256 bits. */
  const MinKeyBytes: nat := 32

  /** The expiry is acceptable when it parses as an `int` above zero. */
  predicate ExpiryValid(v: Option<string>) {
    v.Some? && TryParse(v.value).Some? && TryParse(v.value).value > 0
  }

  /** The first four settings checks pass. */
  predicate SettingsValidUpToExpiry(c: Configuration) {
    && c.jwtSettings.Some?
    && !IsNullOrEmpty(Key(c))
    && !IsNullOrEmpty(Issuer(c))
    && !IsNullOrEmpty(Audience(c))
  }

  /** All five settings checks pass. */
  predicate SettingsValid(c: Configuration) {
    SettingsValidUpToExpiry(c) && ExpiryValid(ExpiryInMinutes(c))
  }

  /** `ValidateJwtSettings`: the checks in their fixed order; the first that
      fails decides the exception. */
  function ValidateJwtSettings(c: Configuration): (r: Option<ServiceError>)
    ensures r.None? <==> SettingsValid(c)
    ensures c.jwtSettings.None? ==> r == Some(InvalidOperationException(SectionMissingMessage))
    ensures c.jwtSettings.Some? && IsNullOrEmpty(Key(c)) ==> r == Some(InvalidOperationException(KeyRequiredMessage))
    ensures c.jwtSettings.Some? && !IsNullOrEmpty(Key(c)) && IsNullOrEmpty(Issuer(c)) ==>
      r == Some(InvalidOperationException(IssuerRequiredMessage))
    ensures c.jwtSettings.Some? && !IsNullOrEmpty(Key(c)) && !IsNullOrEmpty(Issuer(c)) && IsNullOrEmpty(Audience(c)) ==>
      r == Some(InvalidOperationException(AudienceRequiredMessage))
    ensures SettingsValidUpToExpiry(c) && !ExpiryValid(ExpiryInMinutes(c)) ==>
      r == Some(InvalidOperationException(ExpiryInvalidMessage))
  {
    if c.jwtSettings.None? then Some(InvalidOperationException(SectionMissingMessage))
    else if IsNullOrEmpty(Key(c)) then Some(InvalidOperationException(KeyRequiredMessage))
    else if IsNullOrEmpty(Issuer(c)) then Some(InvalidOperationException(IssuerRequiredMessage))
    else if IsNullOrEmpty(Audience(c)) then Some(InvalidOperationException(AudienceRequiredMessage))
    else if !ExpiryValid(ExpiryInMinutes(c)) then Some(InvalidOperationException(ExpiryInvalidMessage))
    else None
  }

  /** A constructed service keeps a reference to the configuration it was
      built from. */
  datatype Service = Service(configuration: Configuration)

  /** The constructor: a null configuration is an `ArgumentNullException`,
      then the settings are checked.  The key's length is not looked at. */
  function Construct(configuration: Option<Configuration>): (r: Result<Service, ServiceError>)
    ensures configuration.None? ==> r == Failure(ArgumentNullException("configuration"))
    ensures r.Success? <==> configuration.Some? && SettingsValid(configuration.value)
    ensures r.Success? ==> r.value.configuration == configuration.value
    ensures configuration.Some? && r.Failure? ==> Some(r.error) == ValidateJwtSettings(configuration.value)
  {
    if configuration.None? then Failure(ArgumentNullException("configuration"))
    else match ValidateJwtSettings(configuration.value)
      case Some(e) => Failure(e)
      case None => Success(Service(configuration.value))
  }

  // ---- Tokens -------------------------------------------------------------

  datatype Claim = Claim(claimType: string, value: string)

  /** The registered claim names of section 4.1 of RFC 7519 that the
      service uses, and the framework's name-identifier claim type. */
  const SubClaim := "sub"
  const EmailClaim := "email"
  const JtiClaim := "jti"
  const NameIdentifierClaim := "http://schemas.xmlsoap.org/ws/2005/05/identity/claims/nameidentifier"

  datatype Token = Token(
    issuer: Option<string>,
    audience: Option<string>,
    claims: seq<Claim>,
    expires: DateTime,
    signingKey: string)

  /** Upper-cases an ASCII letter and leaves every other character alone. */
  function FoldAscii(c: char): (f: char)
    ensures 'a' <= c <= 'z' ==> f as int == c as int - 32
    ensures !('a' <= c <= 'z') ==> f == c
    ensures !('a' <= f <= 'z')
  {
    if 'a' <= c <= 'z' then (c as int - 32) as char else c
  }

  /** Claim types compare as `StringComparison.OrdinalIgnoreCase` does on
      ASCII text: same length, and equal character by character once
      letters are upper-cased. */
  predicate SameClaimType(a: string, b: string) {
    |a| == |b| && forall i | 0 <= i < |a| :: FoldAscii(a[i]) == FoldAscii(b[i])
  }

  /** `ToUpperInvariant` on ASCII letters. */
  function UpperAscii(s: string): (t: string)
    ensures |t| == |s|
    ensures forall i | 0 <= i < |s| :: t[i] == FoldAscii(s[i])
  {
    seq(|s|, i requires 0 <= i < |s| => FoldAscii(s[i]))
  }

  /** A claim type written in capitals matches the original. */
  lemma UpperAsciiSameClaimType(s: string)
    ensures SameClaimType(UpperAscii(s), s)
  {
    var t := UpperAscii(s);
    forall i | 0 <= i < |s| ensures FoldAscii(t[i]) == FoldAscii(s[i]) {
      assert !('a' <= t[i] <= 'z');
    }
  }

  /** `ClaimsPrincipal.FindFirst(type)?.Value`: the value of the first claim
      whose type matches, ignoring case. */
  function FindFirst(claims: seq<Claim>, claimType: string): (r: Option<string>)
    ensures r.None? <==> forall i | 0 <= i < |claims| :: !SameClaimType(claims[i].claimType, claimType)
    ensures r.Some? ==> exists i | 0 <= i < |claims| ::
      && SameClaimType(claims[i].claimType, claimType)
      && claims[i].value == r.value
      && forall j | 0 <= j < i :: !SameClaimType(claims[j].claimType, claimType)
  {
    if |claims| == 0 then None
    else if SameClaimType(claims[0].claimType, claimType) then Some(claims[0].value)
    else
      var r := FindFirst(claims[1..], claimType);
      assert forall i | 1 <= i < |claims| :: claims[1..][i - 1] == claims[i];
      if r.Some? then
        var i :| 0 <= i < |claims[1..]|
          && SameClaimType(claims[1..][i].claimType, claimType)
          && claims[1..][i].value == r.value
          && forall j | 0 <= j < i :: !SameClaimType(claims[1..][j].claimType, claimType);
        assert claims[i + 1] == claims[1..][i];
        r
      else r
  }

  /** A claim written with its type in another letter case is still found. */
  lemma FindFirstIgnoresCase()
    ensures FindFirst([Claim("SUB", "u1")], SubClaim) == Some("u1")
    ensures FindFirst([Claim("Jti", "a"), Claim("JTI", "b")], JtiClaim) == Some("a")
    ensures FindFirst([Claim("sub", "u1")], JtiClaim) == None
  {
    assert SameClaimType("SUB", SubClaim);
    assert SameClaimType("Jti", JtiClaim);
    assert FoldAscii("sub"[0]) != FoldAscii(JtiClaim[0]);
  }

  /** The claims a token carries for user `u`, in the order they are listed. */
  function UserClaims(u: ApplicationUser, jti: string): seq<Claim> {
    [ Claim(SubClaim, u.id),
      Claim(EmailClaim, if u.email.Some? then u.email.value else ""),
      Claim(JtiClaim, jti),
      Claim(NameIdentifierClaim, u.id) ]
  }

  /** `GenerateTokenAsync(user)` at clock reading `now`, with `jti` the fresh
      GUID.  The steps and the exceptions come in source order: the null
      user, the key read back from configuration (a null key makes the UTF-8
      encoder throw), the key-length check, then the expiry: parsing the
      setting and adding it to `now`. */
  function GenerateToken(svc: Service, user: Option<ApplicationUser>, now: DateTime, jti: string): (r: Result<Token, ServiceError>)
    ensures user.None? ==> r == Failure(ArgumentNullException("user"))
    ensures user.Some? && Key(svc.configuration).Some? && Utf8Length(Key(svc.configuration).value) < MinKeyBytes ==>
      r == Failure(InvalidOperationException(KeyTooShortMessage))
    ensures r.Success? ==>
      && user.Some?
      && Key(svc.configuration).Some? && Utf8Length(Key(svc.configuration).value) >= MinKeyBytes
      && r.value.claims == UserClaims(user.value, jti)
      && r.value.signingKey == Key(svc.configuration).value
      && r.value.issuer == Issuer(svc.configuration)
      && r.value.audience == Audience(svc.configuration)
      && ExpiryInMinutes(svc.configuration).Some?
      && ParseInt32(ExpiryInMinutes(svc.configuration).value).Parsed?
      && r.value.expires == now + ParseInt32(ExpiryInMinutes(svc.configuration).value).value * TicksPerMinute
  {
    if user.None? then Failure(ArgumentNullException("user"))
    else
      var u := user.value;
      var claims := UserClaims(u, jti);
      var c := svc.configuration;
      if Key(c).None? then Failure(ArgumentNullException("s"))
      else if Utf8Length(Key(c).value) < MinKeyBytes then Failure(InvalidOperationException(KeyTooShortMessage))
      else if ExpiryInMinutes(c).None? then Failure(ArgumentNullException("s"))
      else match ParseInt32(ExpiryInMinutes(c).value)
        case FormatError => Failure(FormatException)
        case OverflowError => Failure(OverflowException)
        case Parsed(minutes) =>
          match AddMinutes(now, minutes)
          case Failure(_) => Failure(ArgumentOutOfRangeException)
          case Success(expires) =>
            Success(Token(Issuer(c), Audience(c), claims, expires, Key(c).value))
  }

  /** What an issued token says about its user: exactly four claims, of four
      different types; the subject and the name identifier both carry the
      user's id, the email claim the user's email or "" when there is none,
      and `jti` the fresh id. */
  lemma IssuedTokenClaims(svc: Service, u: ApplicationUser, now: DateTime, jti: string)
    requires GenerateToken(svc, Some(u), now, jti).Success?
    ensures var t := GenerateToken(svc, Some(u), now, jti).value;
      && |t.claims| == 4
      && (set i | 0 <= i < |t.claims| :: t.claims[i].claimType) == {SubClaim, EmailClaim, JtiClaim, NameIdentifierClaim}
      && FindFirst(t.claims, SubClaim) == Some(u.id)
      && FindFirst(t.claims, NameIdentifierClaim) == Some(u.id)
      && FindFirst(t.claims, EmailClaim) == Some(if u.email.Some? then u.email.value else "")
      && FindFirst(t.claims, JtiClaim) == Some(jti)
  {
    UserClaimsFacts(u, jti);
  }

  lemma UserClaimsFacts(u: ApplicationUser, jti: string)
    ensures var cs := UserClaims(u, jti);
      && |cs| == 4
      && (set i | 0 <= i < |cs| :: cs[i].claimType) == {SubClaim, EmailClaim, JtiClaim, NameIdentifierClaim}
      && FindFirst(cs, SubClaim) == Some(u.id)
      && FindFirst(cs, NameIdentifierClaim) == Some(u.id)
      && FindFirst(cs, EmailClaim) == Some(if u.email.Some? then u.email.value else "")
      && FindFirst(cs, JtiClaim) == Some(jti)
  {
    UserClaimTypes(u, jti);
    UserClaimLookups(u, jti);
  }

  lemma UserClaimTypes(u: ApplicationUser, jti: string)
    ensures var cs := UserClaims(u, jti);
      && |cs| == 4
      && (set i | 0 <= i < |cs| :: cs[i].claimType) == {SubClaim, EmailClaim, JtiClaim, NameIdentifierClaim}
  {
    var cs := UserClaims(u, jti);
    assert cs[0].claimType == SubClaim;
    assert cs[1].claimType == EmailClaim;
    assert cs[2].claimType == JtiClaim;
    assert cs[3].claimType == NameIdentifierClaim;
  }

  lemma UserClaimLookups(u: ApplicationUser, jti: string)
    ensures var cs := UserClaims(u, jti);
      && FindFirst(cs, SubClaim) == Some(u.id)
      && FindFirst(cs, NameIdentifierClaim) == Some(u.id)
      && FindFirst(cs, EmailClaim) == Some(if u.email.Some? then u.email.value else "")
      && FindFirst(cs, JtiClaim) == Some(jti)
  {
    UserClaimLookupsFirstHalf(u, jti);
    UserClaimLookupsSecondHalf(u, jti);
  }

  lemma UserClaimLookupsFirstHalf(u: ApplicationUser, jti: string)
    ensures var cs := UserClaims(u, jti);
      && FindFirst(cs, SubClaim) == Some(u.id)
      && FindFirst(cs, EmailClaim) == Some(if u.email.Some? then u.email.value else "")
  {
    var cs := UserClaims(u, jti);
    assert cs[0].claimType == SubClaim && cs[1].claimType == EmailClaim;
  }

  lemma UserClaimLookupsSecondHalf(u: ApplicationUser, jti: string)
    ensures var cs := UserClaims(u, jti);
      && FindFirst(cs, JtiClaim) == Some(jti)
      && FindFirst(cs, NameIdentifierClaim) == Some(u.id)
  {
    var cs := UserClaims(u, jti);
    assert cs[0].claimType == SubClaim && cs[1].claimType == EmailClaim;
    assert cs[2].claimType == JtiClaim && cs[3].claimType == NameIdentifierClaim;
    assert FoldAscii(SubClaim[0]) != FoldAscii(JtiClaim[0]);
  }

  /** The expiry is the configured number of minutes after `now`, hence
      strictly later. */
  lemma IssuedTokenExpiresLater(svc: Service, u: ApplicationUser, now: DateTime, jti: string)
    requires SettingsValid(svc.configuration)
    requires GenerateToken(svc, Some(u), now, jti).Success?
    ensures var t := GenerateToken(svc, Some(u), now, jti).value;
      && t.expires == now + TryParse(ExpiryInMinutes(svc.configuration).value).value * TicksPerMinute
      && t.expires > now
  {
  }

  /** The latest clock reading at which any valid expiry can still be added
      without passing `DateTime.MaxValue`: 2^31 - 1 minutes before it, on
      8 December 5916. */
  const LatestSafeNow: int := MaxTicks - Int32Max * TicksPerMinute

  /** Once construction has succeeded, the parse of the expiry cannot fail
      at generation time, and for a clock before `LatestSafeNow` the only
      failure left is a key shorter than 32 UTF-8 bytes. */
  lemma ConstructedServiceFailsOnlyOnKeyLength(c: Configuration, u: ApplicationUser, now: DateTime, jti: string)
    requires Construct(Some(c)).Success?
    requires now <= LatestSafeNow
    ensures var r := GenerateToken(Construct(Some(c)).value, Some(u), now, jti);
      && (r.Success? <==> Utf8Length(Key(c).value) >= MinKeyBytes)
      && (r.Failure? ==> r.error == InvalidOperationException(KeyTooShortMessage))
  {
  }

  /** Construction never looks at the key's length: a one-character key is
      accepted, and only generation rejects it. */
  lemma ShortKeyPassesConstruction(u: ApplicationUser, now: DateTime, jti: string)
    ensures var c := Configuration(Some(JwtSettings(Some("k"), Some("issuer"), Some("audience"), Some("60"))));
      && Construct(Some(c)).Success?
      && GenerateToken(Construct(Some(c)).value, Some(u), now, jti) == Failure(InvalidOperationException(KeyTooShortMessage))
  {
    OneCharacterKeySettingsValid();
    assert Utf8Length("k") == 1;
  }

  lemma OneCharacterKeySettingsValid()
    ensures SettingsValid(Configuration(Some(JwtSettings(Some("k"), Some("issuer"), Some("audience"), Some("60")))))
  {
    SixtyMinutesValid();
  }

  lemma SixtyMinutesValid()
    ensures ExpiryValid(Some("60"))
  {
    TryParseFormat(60);
    assert Format(60) == "60";
  }

  /** The key rule counts bytes, not characters: eleven euro signs (three
      bytes each) are enough, thirty-one ASCII characters are not. */
  lemma KeyRuleCountsBytes()
    ensures Utf8Length(seq(11, _ => '\U{20AC}')) == 33
    ensures Utf8Length(seq(31, _ => 'k')) == 31
  {
    Utf8LengthOfRepeat('\U{20AC}', 11);
  }

  /** Any expiry that is not a positive `int` fails construction, once the
      first four settings are present. */
  lemma InvalidExpiryRejected(key: string, issuer: string, audience: string, e: Option<string>)
    requires |key| > 0 && |issuer| > 0 && |audience| > 0
    requires !ExpiryValid(e)
    ensures Construct(Some(Configuration(Some(JwtSettings(Some(key), Some(issuer), Some(audience), e)))))
      == Failure(InvalidOperationException(ExpiryInvalidMessage))
  {
  }

  /** Zero, a negative number, text, the empty string and a missing value. */
  lemma SampleExpiriesInvalid()
    ensures forall e | e in [Some("0"), Some("-5"), Some("abc"), Some(""), None] :: !ExpiryValid(e)
  {
    ZeroExpiryInvalid();
    NegativeExpiryInvalid();
    TextExpiryInvalid();
    EmptyExpiryInvalid();
  }

  lemma ZeroExpiryInvalid()
    ensures !ExpiryValid(Some("0"))
  {
    TryParseFormat(0);
    assert Format(0) == "0";
  }

  lemma NegativeExpiryInvalid()
    ensures !ExpiryValid(Some("-5"))
  {
    TryParseFormat(-5);
    assert Format(-5) == "-5";
  }

  lemma TextExpiryInvalid()
    ensures !ExpiryValid(Some("abc"))
  {
    assert ParseInt32("abc") == FormatError;
  }

  lemma EmptyExpiryInvalid()
    ensures !ExpiryValid(Some(""))
  {
  }

  /** Expiry values that construction rejects. */
  lemma BadExpiriesRejected(key: string, issuer: string, audience: string)
    requires |key| > 0 && |issuer| > 0 && |audience| > 0
    ensures forall e | e in [Some("0"), Some("-5"), Some("abc"), Some(""), None] ::
      Construct(Some(Configuration(Some(JwtSettings(Some(key), Some(issuer), Some(audience), e)))))
        == Failure(InvalidOperationException(ExpiryInvalidMessage))
  {
    SampleExpiriesInvalid();
    forall e | e in [Some("0"), Some("-5"), Some("abc"), Some(""), None]
      ensures Construct(Some(Configuration(Some(JwtSettings(Some(key), Some(issuer), Some(audience), e)))))
        == Failure(InvalidOperationException(ExpiryInvalidMessage))
    {
      InvalidExpiryRejected(key, issuer, audience, e);
    }
  }
}

=== FILE: login_model.dfy ===
/** The validation rules on the login request body (`LoginDto`). */
module LoginModel {
  import opened Wrappers
  import opened Strings
  import opened DataAnnotations

  datatype LoginDto = LoginDto(email: Option<string>, password: Option<string>)

  const EmailRequiredMessage := "Email is required"
  const InvalidEmailMessage := "Invalid email format"
  const PasswordRequiredMessage := "Password is required"

  /** The model-state errors of a login body, in the order model state
      keeps its keys (shorter key first): `Email`, then `Password`. */
  function Errors(m: LoginDto): (errs: seq<string>)
    ensures |errs| == 0 <==> Required(m.email) && EmailAddress(m.email) && Required(m.password)
    ensures EmailRequiredMessage in errs <==> IsNullOrWhiteSpace(m.email)
    ensures PasswordRequiredMessage in errs <==> IsNullOrWhiteSpace(m.password)
    ensures InvalidEmailMessage in errs <==> !EmailAddress(m.email)
  {
    (if !Required(m.email) then [EmailRequiredMessage] else [])
    + (if !EmailAddress(m.email) then [InvalidEmailMessage] else [])
    + (if !Required(m.password) then [PasswordRequiredMessage] else [])
  }

  predicate IsValid(m: LoginDto) {
    |Errors(m)| == 0
  }

  /** The login password has no length or complexity rule: any password
      that is not blank passes, however short or simple. */
  lemma AnyNonBlankPasswordPasses(email: string, password: string)
    requires Required(Some(email)) && EmailAddress(Some(email))
    requires !AllWhiteSpace(password)
    ensures IsValid(LoginDto(Some(email), Some(password)))
  {
  }

  /** For example the one-character password "x". */
  lemma OneCharacterPasswordPasses()
    ensures IsValid(LoginDto(Some("a@b"), Some("x")))
  {
    var e := "a@b";
    assert IndexOf(e, '@') == 1 by { assert e[0] != '@' && e[1] == '@'; }
    assert LastIndexOf(e, '@') == 1 by { assert e[2] != '@'; assert e[..2] == "a@"; }
    assert !IsWhiteSpace(e[0]);
    assert !IsWhiteSpace("x"[0]);
  }
}

=== FILE: qualification.dfy ===
/** The validation rules on an employee `Qualification`: a required course,
    a year between 1900 and 2100, and a percentage between 0 and 100 whose
    decimal value is compared after conversion to `int`. */
module Qualification {
  import opened Wrappers
  import opened Strings
  import opened DataAnnotations
  import opened Decimals

  datatype Qualification = Qualification(
    id: int,
    employeeId: int,
    course: Option<string>,
    yearPassed: int,
    marksPercentage: Decimal)

  const CourseRequiredMessage := "Course is required."
  const YearRangeMessage := "Year Passed must be between 1900 and 2100."
  const MarksRangeMessage := "Marks Percentage must be between 0 and 100."

  const MinYear: int := 1900
  const MaxYear: int := 2100
  const MinMarks: int := 0
  const MaxMarks: int := 100

  /** Validation either lists the failing rules' messages or throws the
      `OverflowException` of the percentage conversion. */
  function Validate(q: Qualification): (r: Result<seq<string>, ConversionError>)
    ensures r.Failure? <==> ToInt32(q.marksPercentage).Failure?
    ensures r.Success? ==>
      && (CourseRequiredMessage in r.value <==> IsNullOrWhiteSpace(q.course))
      && (YearRangeMessage in r.value <==> !(MinYear <= q.yearPassed <= MaxYear))
      && (MarksRangeMessage in r.value <==> RangeDecimal(q.marksPercentage, MinMarks, MaxMarks) == Invalid)
      && (|r.value| == 0 <==>
            !IsNullOrWhiteSpace(q.course) && MinYear <= q.yearPassed <= MaxYear
            && RangeDecimal(q.marksPercentage, MinMarks, MaxMarks) == Valid)
  {
    var marks := RangeDecimal(q.marksPercentage, MinMarks, MaxMarks);
    if marks == Throws then Failure(OverflowException)
    else
      Success(
        (if !Required(q.course) then [CourseRequiredMessage] else [])
        + (if !RangeInt(q.yearPassed, MinYear, MaxYear) then [YearRangeMessage] else [])
        + (if marks == Invalid then [MarksRangeMessage] else []))
  }

  /** The percentage rule accepts exactly the values from -0.5 to 100.5,
      both ends included because they round to the even neighbours 0 and
      100. */
  lemma MarksAcceptedIff(d: Decimal)
    ensures var p: int := Pow10(d.scale);
      RangeDecimal(d, MinMarks, MaxMarks) == Valid <==> -p <= 2 * d.units <= 201 * p
  {
    RoundHalfEvenIsNearest(d);
    NearestInEvenRange(d.units, Pow10(d.scale), RoundHalfEven(d), MinMarks, MaxMarks);
  }

  /** 100.4 is accepted although it exceeds the stated maximum. */
  lemma JustAboveHundredAccepted()
    ensures RangeDecimal(Decimal(1004, 1), MinMarks, MaxMarks) == Valid
  {
    MarksAcceptedIff(Decimal(1004, 1));
  }

  /** A percentage too large for `int` makes validation throw. */
  lemma HugePercentageThrows()
    ensures Validate(Qualification(0, 1, Some("BICTE"), 2020, Decimal(0x1_0000_0000, 0))).Failure?
  {
  }

  /** The add-qualification form starts from an empty course and year 0. */
  function NewQualificationForm(employeeId: int): Qualification {
    Qualification(0, employeeId, Some(""), 0, Decimal(0, 0))
  }

  /** Submitting that form unedited fails on the course and on the year, and
      nowhere else, whether the empty course arrives as "" or as null. */
  lemma UneditedFormRejected(employeeId: int)
    ensures Validate(NewQualificationForm(employeeId)) == Success([CourseRequiredMessage, YearRangeMessage])
    ensures Validate(NewQualificationForm(employeeId).(course := None)) == Success([CourseRequiredMessage, YearRangeMessage])
  {
    var q := NewQualificationForm(employeeId);
    assert RangeDecimal(q.marksPercentage, MinMarks, MaxMarks) == Valid;
    assert !Required(q.course) && !Required(q.(course := None).course);
    assert !RangeInt(q.yearPassed, MinYear, MaxYear);
    assert Validate(q).Success?;
    assert Validate(q).value == [CourseRequiredMessage] + [YearRangeMessage] + [];
    assert [CourseRequiredMessage] + [YearRangeMessage] + [] == [CourseRequiredMessage, YearRangeMessage];
    assert Validate(q) == Success([CourseRequiredMessage, YearRangeMessage]);
  }
}

=== FILE: register_model.dfy ===
/** The validation rules on the registration request body (`RegisterDto`):
    the attributes on `Email`, `Password` and `FullName`, the messages they
    produce, and what they imply for the identity store's own password
    policy. */
module RegisterModel {
  import opened Wrappers
  import opened Strings
  import opened DataAnnotations
  import Identity

  datatype RegisterDto = RegisterDto(
    email: Option<string>,
    password: Option<string>,
    fullName: Option<string>)

  const EmailRequiredMessage := "Email is required"
  const InvalidEmailMessage := "Invalid email format"
  const PasswordRequiredMessage := "Password is required"
  const PasswordLengthMessage := "Password must be 8-100 characters"
  const PasswordPatternMessage := "Password must contain at least one uppercase letter, one lowercase letter, one digit, and one special character"
  const FullNameRequiredMessage := "Full name is required"
  const FullNameLengthMessage := "Full name cannot exceed 100 characters"

  const PasswordMinLength: nat := 8
  const PasswordMaxLength: nat := 100
  const FullNameMaxLength: nat := 100

  // ---- The password regular expression, as character classes ----------

  predicate IsAsciiLower(c: char) { 'a' <= c <= 'z' }
  predicate IsAsciiUpper(c: char) { 'A' <= c <= 'Z' }

  /** The regular expression class `\d`: any character of Unicode category
      Nd (decimal digit), not only the ASCII ones.  Listed are the runs of
      ten such characters in the Basic Multilingual Plane, by their first
      code point; a .NET string holds UTF-16 code units, so digits outside
      that plane never match a single `\d`. */
  predicate IsRegexDigit(c: char) {
    var n := c as int;
    || DigitRun(n, 0x0030) || DigitRun(n, 0x0660) || DigitRun(n, 0x06F0) || DigitRun(n, 0x07C0)
    || DigitRun(n, 0x0966) || DigitRun(n, 0x09E6) || DigitRun(n, 0x0A66) || DigitRun(n, 0x0AE6)
    || DigitRun(n, 0x0B66) || DigitRun(n, 0x0BE6) || DigitRun(n, 0x0C66) || DigitRun(n, 0x0CE6)
    || DigitRun(n, 0x0D66) || DigitRun(n, 0x0DE6) || DigitRun(n, 0x0E50) || DigitRun(n, 0x0ED0)
    || DigitRun(n, 0x0F20) || DigitRun(n, 0x1040) || DigitRun(n, 0x1090) || DigitRun(n, 0x17E0)
    || DigitRun(n, 0x1810) || DigitRun(n, 0x1946) || DigitRun(n, 0x19D0) || DigitRun(n, 0x1A80)
    || DigitRun(n, 0x1A90) || DigitRun(n, 0x1B50) || DigitRun(n, 0x1BB0) || DigitRun(n, 0x1C40)
    || DigitRun(n, 0x1C50) || DigitRun(n, 0xA620) || DigitRun(n, 0xA8D0) || DigitRun(n, 0xA900)
    || DigitRun(n, 0xA9D0) || DigitRun(n, 0xA9F0) || DigitRun(n, 0xAA50) || DigitRun(n, 0xABF0)
    || DigitRun(n, 0xFF10)
  }

  predicate DigitRun(n: int, first: int) {
    first <= n < first + 10
  }

  /** The class `[@$!%*?&]`. */
  predicate IsSpecial(c: char) {
    c == '@' || c == '$' || c == '!' || c == '%' || c == '*' || c == '?' || c == '&'
  }

  /** The class `[A-Za-z\d@$!%*?&]`. */
  predicate InPasswordClass(c: char) {
    IsAsciiUpper(c) || IsAsciiLower(c) || IsRegexDigit(c) || IsSpecial(c)
  }

  /** A whole-string match of
      `^(?=.*[a-z])(?=.*[A-Z])(?=.*\d)(?=.*[@$!%*?&])[A-Za-z\d@$!%*?&]{8,}$`:
      the four look-aheads ask for one character of each kind, the body for
      eight or more characters all drawn from the class. */
  predicate PasswordPatternMatches(s: string) {
    && |s| >= 8
    && (forall i | 0 <= i < |s| :: InPasswordClass(s[i]))
    && (exists i | 0 <= i < |s| :: IsAsciiLower(s[i]))
    && (exists i | 0 <= i < |s| :: IsAsciiUpper(s[i]))
    && (exists i | 0 <= i < |s| :: IsRegexDigit(s[i]))
    && (exists i | 0 <= i < |s| :: IsSpecial(s[i]))
  }

  /** The match in one left-to-right pass, the way the anchored pattern
      consumes its input.  The rest of the model uses the declarative
      `PasswordPatternMatches`; this scan shows that one pass decides it. */
  method MatchPasswordPattern(s: string) returns (ok: bool)
    ensures ok == PasswordPatternMatches(s)
  {
    var allInClass, hasLower, hasUpper, hasDigit, hasSpecial := true, false, false, false, false;
    var i := 0;
    while i < |s|
      invariant 0 <= i <= |s|
      invariant allInClass == forall j | 0 <= j < i :: InPasswordClass(s[j])
      invariant hasLower == exists j | 0 <= j < i :: IsAsciiLower(s[j])
      invariant hasUpper == exists j | 0 <= j < i :: IsAsciiUpper(s[j])
      invariant hasDigit == exists j | 0 <= j < i :: IsRegexDigit(s[j])
      invariant hasSpecial == exists j | 0 <= j < i :: IsSpecial(s[j])
    {
      var c := s[i];
      allInClass := allInClass && InPasswordClass(c);
      hasLower := hasLower || IsAsciiLower(c);
      hasUpper := hasUpper || IsAsciiUpper(c);
      hasDigit := hasDigit || IsRegexDigit(c);
      hasSpecial := hasSpecial || IsSpecial(c);
      i := i + 1;
    }
    ok := |s| >= 8 && allInClass && hasLower && hasUpper && hasDigit && hasSpecial;
  }

  /** `[RegularExpression]` passes null and the empty string and otherwise
      needs a match that spans the whole value. */
  predicate PasswordRegex(v: Option<string>) {
    v.None? || |v.value| == 0 || PasswordPatternMatches(v.value)
  }

  // ---- The field rules ---------------------------------------------------

  predicate EmailAccepted(v: Option<string>) {
    Required(v) && EmailAddress(v)
  }

  predicate PasswordAccepted(v: Option<string>) {
    Required(v) && StringLength(v, PasswordMaxLength, PasswordMinLength) && PasswordRegex(v)
  }

  predicate FullNameAccepted(v: Option<string>) {
    Required(v) && StringLength(v, FullNameMaxLength, 0)
  }

  /** The messages of the failing attributes on `Email`. */
  function EmailErrors(v: Option<string>): (errs: seq<string>)
    ensures |errs| == 0 <==> EmailAccepted(v)
    ensures EmailRequiredMessage in errs <==> !Required(v)
    ensures InvalidEmailMessage in errs <==> !EmailAddress(v)
    ensures forall e | e in errs :: e == EmailRequiredMessage || e == InvalidEmailMessage
  {
    (if !Required(v) then [EmailRequiredMessage] else [])
    + (if !EmailAddress(v) then [InvalidEmailMessage] else [])
  }

  /** The messages of the failing attributes on `Password`. */
  function PasswordErrors(v: Option<string>): (errs: seq<string>)
    ensures |errs| == 0 <==> PasswordAccepted(v)
    ensures PasswordRequiredMessage in errs <==> !Required(v)
    ensures PasswordLengthMessage in errs <==> !StringLength(v, PasswordMaxLength, PasswordMinLength)
    ensures PasswordPatternMessage in errs <==> !PasswordRegex(v)
    ensures forall e | e in errs :: e == PasswordRequiredMessage || e == PasswordLengthMessage || e == PasswordPatternMessage
  {
    (if !Required(v) then [PasswordRequiredMessage] else [])
    + (if !StringLength(v, PasswordMaxLength, PasswordMinLength) then [PasswordLengthMessage] else [])
    + (if !PasswordRegex(v) then [PasswordPatternMessage] else [])
  }

  /** The messages of the failing attributes on `FullName`. */
  function FullNameErrors(v: Option<string>): (errs: seq<string>)
    ensures |errs| == 0 <==> FullNameAccepted(v)
    ensures FullNameRequiredMessage in errs <==> !Required(v)
    ensures FullNameLengthMessage in errs <==> !StringLength(v, FullNameMaxLength, 0)
    ensures forall e | e in errs :: e == FullNameRequiredMessage || e == FullNameLengthMessage
  {
    (if !Required(v) then [FullNameRequiredMessage] else [])
    + (if !StringLength(v, FullNameMaxLength, 0) then [FullNameLengthMessage] else [])
  }

  /** The model-state errors of a registration body: every failing
      attribute contributes its message, field by field in the order model
      state keeps its keys (shorter key first, then case-insensitive
      ordinal order): `Email`, `FullName`, `Password`. */
  function Errors(m: RegisterDto): (errs: seq<string>)
    ensures |errs| == 0 <==>
      EmailAccepted(m.email) && PasswordAccepted(m.password) && FullNameAccepted(m.fullName)
  {
    EmailErrors(m.email) + FullNameErrors(m.fullName) + PasswordErrors(m.password)
  }

  /** Each of the seven messages appears exactly when its rule fails. */
  lemma ErrorsNameFailingRules(m: RegisterDto)
    ensures EmailRequiredMessage in Errors(m) <==> !Required(m.email)
    ensures InvalidEmailMessage in Errors(m) <==> !EmailAddress(m.email)
    ensures FullNameRequiredMessage in Errors(m) <==> !Required(m.fullName)
    ensures FullNameLengthMessage in Errors(m) <==> !StringLength(m.fullName, FullNameMaxLength, 0)
    ensures PasswordRequiredMessage in Errors(m) <==> !Required(m.password)
    ensures PasswordLengthMessage in Errors(m) <==> !StringLength(m.password, PasswordMaxLength, PasswordMinLength)
    ensures PasswordPatternMessage in Errors(m) <==> !PasswordRegex(m.password)
  {
    EmailMessagesNamed(m);
    FullNameMessagesNamed(m);
    PasswordMessagesNamed(m);
  }

  lemma EmailMessagesNamed(m: RegisterDto)
    ensures EmailRequiredMessage in Errors(m) <==> !Required(m.email)
    ensures InvalidEmailMessage in Errors(m) <==> !EmailAddress(m.email)
  {
    var e, f, p := EmailErrors(m.email), FullNameErrors(m.fullName), PasswordErrors(m.password);
    assert Errors(m) == e + f + p;
    assert EmailRequiredMessage !in f && EmailRequiredMessage !in p;
    assert InvalidEmailMessage !in f && InvalidEmailMessage !in p;
  }

  lemma FullNameMessagesNamed(m: RegisterDto)
    ensures FullNameRequiredMessage in Errors(m) <==> !Required(m.fullName)
    ensures FullNameLengthMessage in Errors(m) <==> !StringLength(m.fullName, FullNameMaxLength, 0)
  {
    var e, f, p := EmailErrors(m.email), FullNameErrors(m.fullName), PasswordErrors(m.password);
    assert Errors(m) == e + f + p;
    assert FullNameRequiredMessage !in e && FullNameRequiredMessage !in p;
    assert FullNameLengthMessage !in e && FullNameLengthMessage !in p;
  }

  lemma PasswordMessagesNamed(m: RegisterDto)
    ensures PasswordRequiredMessage in Errors(m) <==> !Required(m.password)
    ensures PasswordLengthMessage in Errors(m) <==> !StringLength(m.password, PasswordMaxLength, PasswordMinLength)
    ensures PasswordPatternMessage in Errors(m) <==> !PasswordRegex(m.password)
  {
    var e, f, p := EmailErrors(m.email), FullNameErrors(m.fullName), PasswordErrors(m.password);
    assert Errors(m) == e + f + p;
    assert PasswordRequiredMessage !in e && PasswordRequiredMessage !in f;
    assert PasswordLengthMessage !in e && PasswordLengthMessage !in f;
    assert PasswordPatternMessage !in e && PasswordPatternMessage !in f;
  }

  predicate IsValid(m: RegisterDto) {
    |Errors(m)| == 0
  }

  // ---- What an accepted password looks like ------------------------------

  lemma ClassCharFacts(c: char)
    requires InPasswordClass(c)
    ensures c as int < 0x1_0000 && !IsWhiteSpace(c)
  {
    if IsRegexDigit(c) {
      assert 0x30 <= c as int < 0xFF1A;
    }
  }

  lemma ClassCharsAreInBasicPlane(s: string)
    requires forall i | 0 <= i < |s| :: InPasswordClass(s[i])
    ensures Utf16Length(s) == |s|
    ensures !AllWhiteSpace(s) || |s| == 0
  {
    forall i | 0 <= i < |s| ensures s[i] as int < 0x1_0000 && !IsWhiteSpace(s[i]) {
      ClassCharFacts(s[i]);
    }
    if |s| > 0 {
      assert !IsWhiteSpace(s[0]);
    }
  }

  /** The three password attributes together accept exactly the strings of
      8 to 100 characters drawn from the class that hold a lower-case letter,
      an upper-case letter, a digit and a special character. */
  lemma PasswordAcceptedIff(p: string)
    ensures PasswordAccepted(Some(p)) <==>
      && PasswordMinLength <= |p| <= PasswordMaxLength
      && (forall i | 0 <= i < |p| :: InPasswordClass(p[i]))
      && (exists i | 0 <= i < |p| :: IsAsciiLower(p[i]))
      && (exists i | 0 <= i < |p| :: IsAsciiUpper(p[i]))
      && (exists i | 0 <= i < |p| :: IsRegexDigit(p[i]))
      && (exists i | 0 <= i < |p| :: IsSpecial(p[i]))
  {
    if forall i | 0 <= i < |p| :: InPasswordClass(p[i]) {
      ClassCharsAreInBasicPlane(p);
    }
  }

  /** A space, `#` or `-` anywhere makes the password unacceptable. */
  lemma PasswordOutsideClassRejected(p: string, i: int)
    requires 0 <= i < |p| && (p[i] == ' ' || p[i] == '#' || p[i] == '-')
    ensures !PasswordAccepted(Some(p))
  {
    PasswordAcceptedIff(p);
    assert !InPasswordClass(p[i]);
  }

  /** The upper bound comes from the length attribute alone: 101 characters
      that match the pattern are still rejected. */
  lemma OverlongCompliantPasswordRejected()
    ensures var p := "Aa1@" + seq(97, _ => 'a');
      && |p| == 101 && PasswordRegex(Some(p)) && !PasswordAccepted(Some(p))
  {
    var p := "Aa1@" + seq(97, _ => 'a');
    assert IsRegexDigit(p[2]);
    assert IsAsciiLower(p[1]) && IsAsciiUpper(p[0]) && IsSpecial(p[3]);
    ClassCharsAreInBasicPlane(p);
  }

  // ---- Against the identity store's policy -------------------------------

  /** On ASCII input the registration rules are at least as strict as the
      store's password policy, so the store never rejects such a password
      for its shape. */
  lemma AsciiAcceptedPasswordMeetsStorePolicy(p: string)
    requires forall i | 0 <= i < |p| :: p[i] as int < 0x80
    requires PasswordAccepted(Some(p))
    ensures Identity.PasswordErrors(p) == []
  {
    PasswordAcceptedIff(p);
    ClassCharsAreInBasicPlane(p);
    var d :| 0 <= d < |p| && IsRegexDigit(p[d]);
    var s :| 0 <= s < |p| && IsSpecial(p[s]);
    var l :| 0 <= l < |p| && IsAsciiLower(p[l]);
    var u :| 0 <= u < |p| && IsAsciiUpper(p[u]);
    assert Identity.IsDigit(p[d]);
    StorePolicyMetBy(p, d, s, l, u);
  }

  /** The store's policy holds once one character of each kind is found. */
  lemma StorePolicyMetBy(p: string, d: int, s: int, l: int, u: int)
    requires !AllWhiteSpace(p) && Utf16Length(p) >= Identity.RequiredLength
    requires 0 <= d < |p| && Identity.IsDigit(p[d])
    requires 0 <= s < |p| && IsSpecial(p[s])
    requires 0 <= l < |p| && IsAsciiLower(p[l])
    requires 0 <= u < |p| && IsAsciiUpper(p[u])
    ensures |Identity.PasswordErrors(p)| == 0
  {
    assert !Identity.IsLetterOrDigit(p[s]);
    assert Identity.IsLower(p[l]) && Identity.IsUpper(p[u]);
  }

  /** A password whose only digit is ARABIC-INDIC DIGIT ONE. */
  const ArabicIndicPassword: string := "Abcdef@\U{0661}"

  /** Registration accepts it, since `\d` matches any decimal digit. */
  lemma ArabicIndicPasswordAccepted()
    ensures PasswordAccepted(Some(ArabicIndicPassword))
  {
    var p := ArabicIndicPassword;
    forall i | 0 <= i < |p| ensures InPasswordClass(p[i]) {
      if i == 7 {
        assert DigitRun(p[i] as int, 0x0660);
      } else {
        assert IsAsciiUpper(p[i]) || IsAsciiLower(p[i]) || IsSpecial(p[i]);
      }
    }
    assert DigitRun(p[7] as int, 0x0660);
    assert IsAsciiLower(p[1]) && IsAsciiUpper(p[0]) && IsSpecial(p[6]);
    PasswordAcceptedIff(p);
  }

  /** Outside ASCII the implication fails: `\d` accepts an Arabic-Indic
      digit, the store's policy does not count it as a digit. */
  lemma NonAsciiDigitPasswordFailsStorePolicy()
    ensures PasswordAccepted(Some(ArabicIndicPassword))
    ensures Identity.PasswordRequiresDigit in Identity.PasswordErrors(ArabicIndicPassword)
  {
    ArabicIndicPasswordAccepted();
    ArabicIndicPasswordHasNoAsciiDigit();
    DigitlessPasswordReported(ArabicIndicPassword);
  }

  lemma ArabicIndicPasswordHasNoAsciiDigit()
    ensures forall i | 0 <= i < |ArabicIndicPassword| :: !Identity.IsDigit(ArabicIndicPassword[i])
  {
  }

  lemma DigitlessPasswordReported(p: string)
    requires forall i | 0 <= i < |p| :: !Identity.IsDigit(p[i])
    ensures Identity.PasswordRequiresDigit in Identity.PasswordErrors(p)
  {
  }
}

=== FILE: reports_controller.dfy ===
/** `ReportsController`: per-user CRUD over the report table.  The table is
    a map from id to report together with the next value of the identity
    column; the clock reading and whether the save succeeds are parameters.
    Every action identifies its caller by the name-identifier claim and
    touches only the caller's own reports. */
module ReportsController {
  import opened Wrappers
  import opened Strings
  import opened Http
  import opened Time
  import Identity
  import Jwt = JwtTokenService

  datatype Report = Report(
    id: int,
    title: string,
    description: string,
    createdAt: DateTime,
    userId: string)

  datatype ReportDto = ReportDto(
    id: int,
    title: string,
    description: string,
    createdAt: DateTime,
    userId: string)

  /** The request body of create and update. */
  datatype CreateReportDto = CreateReportDto(title: string, description: string)

  /** The report table; `nextId` is the identity column's next value. */
  datatype Db = Db(reports: map<int, Report>, nextId: int)

  /** Ids are positive, below the identity counter, and match their key. */
  predicate Valid(db: Db) {
    && db.nextId >= 1
    && forall id | id in db.reports :: 1 <= id < db.nextId && db.reports[id].id == id
  }

  datatype Body =
    | Error(error: ErrorResponseDto)
    | One(report: ReportDto)
    | Many(reports: seq<ReportDto>)
    | Empty

  datatype Response = Response(status: int, body: Body)

  datatype Outcome = Outcome(response: Response, db: Db)

  const NotAuthenticatedMessage := "User not authenticated"
  const NotFoundMessage := "Report not found"
  const InvalidReportMessage := "Invalid report data"
  const CreateFailedMessage := "An error occurred while creating the report"
  const UpdateFailedMessage := "An error occurred while updating the report"
  const DeleteFailedMessage := "An error occurred while deleting the report"

  function ToDto(r: Report): ReportDto {
    ReportDto(r.id, r.title, r.description, r.createdAt, r.userId)
  }

  /** `User.FindFirst(ClaimTypes.NameIdentifier)?.Value`. */
  function CallerId(principal: seq<Jwt.Claim>): Option<string> {
    Jwt.FindFirst(principal, Jwt.NameIdentifierClaim)
  }

  /** The claim type is matched ignoring case: a first claim whose type is
      the name identifier in any letter case, capitals included, names the
      caller. */
  lemma CallerIdIgnoresCase(t: string, v: string, rest: seq<Jwt.Claim>)
    requires Jwt.SameClaimType(t, Jwt.NameIdentifierClaim)
    ensures CallerId([Jwt.Claim(t, v)] + rest) == Some(v)
    ensures CallerId([Jwt.Claim(Jwt.UpperAscii(Jwt.NameIdentifierClaim), v)] + rest) == Some(v)
  {
    Jwt.UpperAsciiSameClaimType(Jwt.NameIdentifierClaim);
    assert ([Jwt.Claim(t, v)] + rest)[0] == Jwt.Claim(t, v);
    assert ([Jwt.Claim(Jwt.UpperAscii(Jwt.NameIdentifierClaim), v)] + rest)[0].claimType
      == Jwt.UpperAscii(Jwt.NameIdentifierClaim);
  }

  /** The principal names a caller: its name-identifier claim is present and
      not empty.  The principal is one the controller's `[Authorize]` gate
      has already admitted. */
  predicate HasCallerId(principal: seq<Jwt.Claim>) {
    !IsNullOrEmpty(CallerId(principal))
  }

  /** The query `Where(r => r.Id == id && r.UserId == caller)`. */
  function FindOwned(db: Db, caller: string, id: int): (r: Option<Report>)
    ensures r.Some? <==> id in db.reports && db.reports[id].userId == caller
    ensures r.Some? ==> r.value == db.reports[id]
  {
    if id in db.reports && db.reports[id].userId == caller then Some(db.reports[id]) else None
  }

  /** The keys of the caller's reports from `k` up to the identity counter,
      in ascending order. */
  function OwnedIdsFrom(db: Db, caller: string, k: int): (ids: seq<int>)
    ensures forall i | 0 <= i < |ids| :: ids[i] in db.reports && k <= ids[i] && db.reports[ids[i]].userId == caller
    ensures forall id | id in db.reports && k <= id < db.nextId && db.reports[id].userId == caller :: id in ids
    ensures forall i, j | 0 <= i < j < |ids| :: ids[i] < ids[j]
    decreases db.nextId - k
  {
    if k >= db.nextId then []
    else
      var rest := OwnedIdsFrom(db, caller, k + 1);
      if FindOwned(db, caller, k).Some? then
        var ids := [k] + rest;
        assert forall i | 1 <= i < |ids| :: ids[i] == rest[i - 1];
        ids
      else rest
  }

  /** The listing: the caller's reports, copied field by field, in ascending
      id order. */
  function ListOwned(db: Db, caller: string): (ds: seq<ReportDto>)
    ensures forall d | d in ds :: d.userId == caller
    ensures forall id | id in db.reports && 1 <= id < db.nextId && db.reports[id].userId == caller ::
      ToDto(db.reports[id]) in ds
    ensures Valid(db) ==>
      && (forall d | d in ds :: d.id in db.reports && d == ToDto(db.reports[d.id]))
      && (forall i, j | 0 <= i < j < |ds| :: ds[i].id < ds[j].id)
  {
    var ids := OwnedIdsFrom(db, caller, 1);
    var ds := seq(|ids|, i requires 0 <= i < |ids| => ToDto(db.reports[ids[i]]));
    assert forall id | id in db.reports && 1 <= id < db.nextId && db.reports[id].userId == caller ::
      ToDto(db.reports[id]) in ds by {
      forall id | id in db.reports && 1 <= id < db.nextId && db.reports[id].userId == caller
        ensures ToDto(db.reports[id]) in ds
      {
        var i :| 0 <= i < |ids| && ids[i] == id;
        assert ds[i] == ToDto(db.reports[id]);
      }
    }
    ds
  }

  // ---- The five actions ----------------------------------------------------

  function Unauthenticated(db: Db): Outcome {
    Outcome(Response(Unauthorized, Error(ErrorResponseDto(NotAuthenticatedMessage, []))), db)
  }

  function ReportNotFound(db: Db): Outcome {
    Outcome(Response(NotFound, Error(ErrorResponseDto(NotFoundMessage, []))), db)
  }

  function InvalidReport(db: Db, errors: seq<string>): Outcome {
    Outcome(Response(BadRequest, Error(ErrorResponseDto(InvalidReportMessage, errors))), db)
  }

  function SaveFailed(db: Db, message: string): Outcome {
    Outcome(Response(InternalServerError, Error(ErrorResponseDto(message, []))), db)
  }

  /** `GetReports()` */
  function GetReports(db: Db, principal: seq<Jwt.Claim>): (o: Outcome)
    ensures o.db == db
    ensures !HasCallerId(principal) ==> o == Unauthenticated(db)
    ensures HasCallerId(principal) ==> o.response.status == Ok && o.response.body.Many?
    ensures HasCallerId(principal) && Valid(db) ==>
      var caller, ds := CallerId(principal).value, o.response.body.reports;
      && (forall d | d in ds :: d.id in db.reports && d == ToDto(db.reports[d.id]) && d.userId == caller)
      && (forall id | id in db.reports && db.reports[id].userId == caller :: ToDto(db.reports[id]) in ds)
      && (forall i, j | 0 <= i < j < |ds| :: ds[i].id != ds[j].id)
  {
    if !HasCallerId(principal) then Unauthenticated(db)
    else Outcome(Response(Ok, Many(ListOwned(db, CallerId(principal).value))), db)
  }

  /** `GetReport(id)` */
  function GetReport(db: Db, principal: seq<Jwt.Claim>, id: int): (o: Outcome)
    ensures o.db == db
    ensures !HasCallerId(principal) ==> o == Unauthenticated(db)
    ensures HasCallerId(principal) ==>
      if FindOwned(db, CallerId(principal).value, id).Some?
      then o.response == Response(Ok, One(ToDto(db.reports[id])))
      else o == ReportNotFound(db)
  {
    if !HasCallerId(principal) then Unauthenticated(db)
    else match FindOwned(db, CallerId(principal).value, id)
      case None => ReportNotFound(db)
      case Some(r) => Outcome(Response(Ok, One(ToDto(r))), db)
  }

  /** `CreateReport(model)`.  `modelErrors` are the model-state errors of the
      body; the row gets the identity column's next value. */
  function CreateReport(db: Db, principal: seq<Jwt.Claim>, modelErrors: seq<string>, model: CreateReportDto,
                        now: DateTime, saved: bool): (o: Outcome)
    ensures |modelErrors| > 0 ==> o == InvalidReport(db, modelErrors)
    ensures |modelErrors| == 0 && !HasCallerId(principal) ==> o == Unauthenticated(db)
    ensures |modelErrors| == 0 && HasCallerId(principal) && !saved ==> o == SaveFailed(db, CreateFailedMessage)
    ensures o.response.status == Created <==> |modelErrors| == 0 && HasCallerId(principal) && saved
    ensures o.response.status == Created ==>
      var r := Report(db.nextId, model.title, model.description, now, CallerId(principal).value);
      && o.db == Db(db.reports[db.nextId := r], db.nextId + 1)
      && o.response.body == One(ToDto(r))
    ensures o.response.status != Created ==> o.db == db
  {
    if |modelErrors| > 0 then InvalidReport(db, modelErrors)
    else if !HasCallerId(principal) then Unauthenticated(db)
    else if !saved then SaveFailed(db, CreateFailedMessage)
    else
      var r := Report(db.nextId, model.title, model.description, now, CallerId(principal).value);
      Outcome(Response(Created, One(ToDto(r))), Db(db.reports[db.nextId := r], db.nextId + 1))
  }

  /** `UpdateReport(id, model)` */
  function UpdateReport(db: Db, principal: seq<Jwt.Claim>, id: int, modelErrors: seq<string>,
                        model: CreateReportDto, saved: bool): (o: Outcome)
    ensures |modelErrors| > 0 ==> o == InvalidReport(db, modelErrors)
    ensures |modelErrors| == 0 && !HasCallerId(principal) ==> o == Unauthenticated(db)
    ensures |modelErrors| == 0 && HasCallerId(principal) && FindOwned(db, CallerId(principal).value, id).None? ==>
      o == ReportNotFound(db)
    ensures |modelErrors| == 0 && HasCallerId(principal) && FindOwned(db, CallerId(principal).value, id).Some? && !saved ==>
      o == SaveFailed(db, UpdateFailedMessage)
    ensures o.response.status == NoContent <==>
      |modelErrors| == 0 && HasCallerId(principal) && FindOwned(db, CallerId(principal).value, id).Some? && saved
    ensures o.response.status == NoContent ==>
      && o.response.body == Empty
      && o.db.nextId == db.nextId
      && o.db.reports.Keys == db.reports.Keys
      && o.db.reports[id] == db.reports[id].(title := model.title, description := model.description)
      && forall other | other in db.reports && other != id :: o.db.reports[other] == db.reports[other]
    ensures o.response.status != NoContent ==> o.db == db
  {
    if |modelErrors| > 0 then InvalidReport(db, modelErrors)
    else if !HasCallerId(principal) then Unauthenticated(db)
    else match FindOwned(db, CallerId(principal).value, id)
      case None => ReportNotFound(db)
      case Some(r) =>
        if !saved then SaveFailed(db, UpdateFailedMessage)
        else
          var updated := r.(title := model.title, description := model.description);
          Outcome(Response(NoContent, Empty), db.(reports := db.reports[id := updated]))
  }

  /** `DeleteReport(id)` */
  function DeleteReport(db: Db, principal: seq<Jwt.Claim>, id: int, saved: bool): (o: Outcome)
    ensures !HasCallerId(principal) ==> o == Unauthenticated(db)
    ensures HasCallerId(principal) && FindOwned(db, CallerId(principal).value, id).None? ==> o == ReportNotFound(db)
    ensures HasCallerId(principal) && FindOwned(db, CallerId(principal).value, id).Some? && !saved ==>
      o == SaveFailed(db, DeleteFailedMessage)
    ensures o.response.status == NoContent <==>
      HasCallerId(principal) && FindOwned(db, CallerId(principal).value, id).Some? && saved
    ensures o.response.status == NoContent ==>
      && o.response.body == Empty
      && o.db.nextId == db.nextId
      && o.db.reports.Keys == db.reports.Keys - {id}
      && forall other | other in o.db.reports :: o.db.reports[other] == db.reports[other]
    ensures o.response.status != NoContent ==> o.db == db
  {
    if !HasCallerId(principal) then Unauthenticated(db)
    else match FindOwned(db, CallerId(principal).value, id)
      case None => ReportNotFound(db)
      case Some(_) =>
        if !saved then SaveFailed(db, DeleteFailedMessage)
        else Outcome(Response(NoContent, Empty), db.(reports := db.reports - {id}))
  }

  // ---- Properties across all actions ------------------------------------------

  /** One request to the controller. */
  datatype Action =
    | ListReports
    | ReadReport(id: int)
    | Create(modelErrors: seq<string>, model: CreateReportDto)
    | Update(id: int, modelErrors: seq<string>, model: CreateReportDto)
    | Delete(id: int)

  function Handle(db: Db, principal: seq<Jwt.Claim>, action: Action, now: DateTime, saved: bool): Outcome {
    match action
    case ListReports => GetReports(db, principal)
    case ReadReport(id) => GetReport(db, principal, id)
    case Create(errs, model) => CreateReport(db, principal, errs, model, now, saved)
    case Update(id, errs, model) => UpdateReport(db, principal, id, errs, model, saved)
    case Delete(id) => DeleteReport(db, principal, id, saved)
  }

  /** Every action keeps the table well formed. */
  lemma ValidPreserved(db: Db, principal: seq<Jwt.Claim>, action: Action, now: DateTime, saved: bool)
    requires Valid(db)
    ensures Valid(Handle(db, principal, action, now, saved).db)
  {
  }

  /** Without a caller id nothing changes, and apart from a create or update
      whose body is already invalid the answer is 401. */
  lemma UnauthenticatedChangesNothing(db: Db, principal: seq<Jwt.Claim>, action: Action, now: DateTime, saved: bool)
    requires !HasCallerId(principal)
    ensures Handle(db, principal, action, now, saved).db == db
    ensures (action.Create? || action.Update?) && |action.modelErrors| > 0 ==>
      Handle(db, principal, action, now, saved) == InvalidReport(db, action.modelErrors)
    ensures !((action.Create? || action.Update?) && |action.modelErrors| > 0) ==>
      Handle(db, principal, action, now, saved) == Unauthenticated(db)
  {
  }

  /** The ownership invariant: an action by `caller` neither reveals, nor
      modifies, nor removes a report owned by someone else; no report's owner
      ever changes; a new report belongs to the caller. */
  lemma OwnershipInvariant(db: Db, principal: seq<Jwt.Claim>, action: Action, now: DateTime, saved: bool)
    requires Valid(db)
    requires HasCallerId(principal)
    ensures var caller, o := CallerId(principal).value, Handle(db, principal, action, now, saved);
      && (forall id | id in db.reports && db.reports[id].userId != caller ::
            id in o.db.reports && o.db.reports[id] == db.reports[id])
      && (forall id | id in db.reports && id in o.db.reports :: o.db.reports[id].userId == db.reports[id].userId)
      && (forall id | id in o.db.reports && id !in db.reports :: o.db.reports[id].userId == caller)
      && (o.response.body.One? ==> o.response.body.report.userId == caller)
      && (o.response.body.Many? ==> forall d | d in o.response.body.reports :: d.userId == caller)
  {
  }

  /** Another user's report is indistinguishable from a missing one: reading,
      updating or deleting it answers exactly as if the id were absent, and
      the table stays as it was. */
  lemma ForeignReportLikeMissing(db: Db, principal: seq<Jwt.Claim>, action: Action, now: DateTime, saved: bool)
    requires HasCallerId(principal)
    requires action.ReadReport? || action.Update? || action.Delete?
    requires action.id in db.reports && db.reports[action.id].userId != CallerId(principal).value
    ensures var without := db.(reports := db.reports - {action.id});
      && Handle(db, principal, action, now, saved).response == Handle(without, principal, action, now, saved).response
      && Handle(db, principal, action, now, saved).db == db
  {
  }

  /** The claims of a token the service issues identify its user to these
      actions: the caller id is the user's id, so the reports reachable with
      the token are exactly that user's. */
  lemma IssuedTokenIdentifiesOwner(svc: Jwt.Service, u: Identity.ApplicationUser, now: DateTime, jti: string)
    requires Jwt.GenerateToken(svc, Some(u), now, jti).Success?
    ensures var claims := Jwt.GenerateToken(svc, Some(u), now, jti).value.claims;
      && CallerId(claims) == Some(u.id)
      && (HasCallerId(claims) <==> u.id != "")
  {
    Jwt.IssuedTokenClaims(svc, u, now, jti);
  }
}

=== FILE: strings.dfy ===
/** The parts of .NET's `System.String` and `System.Char` that the validation
    rules depend on.  A .NET string is a sequence of UTF-16 code units; here a
    string is a sequence of Unicode scalar values, and the two length measures
    the source relies on (`string.Length` and the UTF-8 byte count) are
    computed explicitly from the scalars. */
module Strings {
  import opened Wrappers

  /** `char.IsWhiteSpace`: the Unicode space, line and paragraph separators
      plus the control characters U+0009..U+000D and U+0085. */
  predicate IsWhiteSpace(c: char) {
    var n := c as int;
    || (0x09 <= n <= 0x0D) || n == 0x20 || n == 0x85 || n == 0xA0
    || n == 0x1680 || (0x2000 <= n <= 0x200A) || n == 0x2028 || n == 0x2029
    || n == 0x202F || n == 0x205F || n == 0x3000
  }

  predicate AllWhiteSpace(s: string) {
    forall i | 0 <= i < |s| :: IsWhiteSpace(s[i])
  }

  /** `string.IsNullOrEmpty` */
  predicate IsNullOrEmpty(s: Option<string>) {
    s.None? || |s.value| == 0
  }

  /** `string.IsNullOrWhiteSpace` */
  predicate IsNullOrWhiteSpace(s: Option<string>) {
    s.None? || AllWhiteSpace(s.value)
  }

  /** Number of white-space characters at the front of `s`. */
  function LeadingWhiteSpace(s: string): (n: nat)
    ensures n <= |s|
    ensures forall i | 0 <= i < n :: IsWhiteSpace(s[i])
    ensures n < |s| ==> !IsWhiteSpace(s[n])
  {
    if |s| == 0 || !IsWhiteSpace(s[0]) then 0
    else 1 + LeadingWhiteSpace(s[1..])
  }

  /** Number of white-space characters at the back of `s`. */
  function TrailingWhiteSpace(s: string): (n: nat)
    ensures n <= |s|
    ensures forall i | |s| - n <= i < |s| :: IsWhiteSpace(s[i])
    ensures n < |s| ==> !IsWhiteSpace(s[|s| - 1 - n])
  {
    if |s| == 0 || !IsWhiteSpace(s[|s| - 1]) then 0
    else 1 + TrailingWhiteSpace(s[..|s| - 1])
  }

  /** `string.TrimStart()` */
  function TrimStart(s: string): (t: string)
    ensures t == s[LeadingWhiteSpace(s)..]
    ensures |t| > 0 ==> !IsWhiteSpace(t[0])
    ensures |t| == 0 <==> AllWhiteSpace(s)
  {
    s[LeadingWhiteSpace(s)..]
  }

  /** `string.TrimEnd()` */
  function TrimEnd(t: string): (r: string)
    ensures |r| <= |t| && r == t[..|r|]
    ensures AllWhiteSpace(t[|r|..])
    ensures |r| > 0 ==> !IsWhiteSpace(r[|r| - 1])
    ensures |r| == 0 <==> AllWhiteSpace(t)
  {
    var r := t[..|t| - TrailingWhiteSpace(t)];
    assert t[|r|..] == t[|t| - TrailingWhiteSpace(t)..];
    r
  }

  /** `string.Trim()`: drops white space at both ends and keeps the middle. */
  function Trim(s: string): (r: string)
    ensures |r| <= |s|
    ensures |r| > 0 ==> !IsWhiteSpace(r[0]) && !IsWhiteSpace(r[|r| - 1])
    ensures AllWhiteSpace(s) <==> |r| == 0
    ensures !AllWhiteSpace(s) ==>
      var a := LeadingWhiteSpace(s);
      && a + |r| <= |s|
      && s[a..a + |r|] == r
      && AllWhiteSpace(s[..a])
      && AllWhiteSpace(s[a + |r|..])
  {
    var t := TrimStart(s);
    var r := TrimEnd(t);
    assert |r| > 0 ==> r[0] == t[0];
    assert s[LeadingWhiteSpace(s) + |r|..] == t[|r|..];
    r
  }

  /** Trimming twice is trimming once. */
  lemma {:induction false} TrimIdempotent(s: string)
    ensures Trim(Trim(s)) == Trim(s)
  {
    var r := Trim(s);
    if |r| > 0 {
      assert LeadingWhiteSpace(r) == 0;
      assert TrailingWhiteSpace(r) == 0;
      assert r[0..][..|r|] == r;
    }
  }

  /** UTF-16 code units needed for one scalar value. */
  function Utf16Units(c: char): nat {
    if c as int < 0x1_0000 then 1 else 2
  }

  /** `string.Length` of the .NET string holding `s`. */
  function Utf16Length(s: string): (n: nat)
    ensures |s| <= n <= 2 * |s|
    ensures n == |s| <==> forall i | 0 <= i < |s| :: s[i] as int < 0x1_0000
  {
    if |s| == 0 then 0
    else
      var rest := Utf16Length(s[1..]);
      assert forall i | 1 <= i < |s| :: s[1..][i - 1] == s[i];
      Utf16Units(s[0]) + rest
  }

  /** UTF-8 bytes needed for one scalar value. */
  function Utf8Bytes(c: char): nat {
    var n := c as int;
    if n < 0x80 then 1 else if n < 0x800 then 2 else if n < 0x1_0000 then 3 else 4
  }

  /** `Encoding.UTF8.GetBytes(s).Length`. */
  function Utf8Length(s: string): (n: nat)
    ensures |s| <= n <= 4 * |s|
    ensures n == |s| <==> forall i | 0 <= i < |s| :: s[i] as int < 0x80
  {
    if |s| == 0 then 0
    else
      var rest := Utf8Length(s[1..]);
      assert forall i | 1 <= i < |s| :: s[1..][i - 1] == s[i];
      Utf8Bytes(s[0]) + rest
  }

  /** A string repeating one character takes that character's byte count
      once per repetition. */
  lemma {:induction false} Utf8LengthOfRepeat(c: char, n: nat)
    ensures Utf8Length(seq(n, _ => c)) == n * Utf8Bytes(c)
  {
    if n > 0 {
      assert seq(n, _ => c)[1..] == seq(n - 1, _ => c);
      Utf8LengthOfRepeat(c, n - 1);
    }
  }

  /** `s.IndexOf(c)`: the first position holding `c`, or -1. */
  function IndexOf(s: string, c: char): (k: int)
    ensures -1 <= k < |s|
    ensures k == -1 <==> forall i | 0 <= i < |s| :: s[i] != c
    ensures k >= 0 ==> s[k] == c && forall i | 0 <= i < k :: s[i] != c
  {
    if |s| == 0 then -1
    else if s[0] == c then 0
    else
      var k := IndexOf(s[1..], c);
      assert forall i | 1 <= i < |s| :: s[1..][i - 1] == s[i];
      if k == -1 then -1 else k + 1
  }

  /** `s.LastIndexOf(c)`: the last position holding `c`, or -1. */
  function LastIndexOf(s: string, c: char): (k: int)
    ensures -1 <= k < |s|
    ensures k == -1 <==> forall i | 0 <= i < |s| :: s[i] != c
    ensures k >= 0 ==> s[k] == c && forall i | k < i < |s| :: s[i] != c
  {
    if |s| == 0 then -1
    else if s[|s| - 1] == c then |s| - 1
    else LastIndexOf(s[..|s| - 1], c)
  }
}

=== FILE: time.dfy ===
/** `System.DateTime` as its tick count (100-nanosecond units since
    0001-01-01), and `DateTime.AddMinutes`, which throws
    `ArgumentOutOfRangeException` when the result leaves the representable
    range. */
module Time {
  import opened Wrappers

  /** `DateTime.MaxValue.Ticks` */
  const MaxTicks: int := 3_155_378_975_999_999_999
  const TicksPerMinute: int := 600_000_000

  type DateTime = t: int | 0 <= t <= MaxTicks

  datatype TimeError = ArgumentOutOfRange

  function AddMinutes(t: DateTime, minutes: int): (r: Result<DateTime, TimeError>)
    ensures r.Success? <==> 0 <= t + minutes * TicksPerMinute <= MaxTicks
    ensures r.Success? ==> r.value == t + minutes * TicksPerMinute
    ensures r.Success? && minutes > 0 ==> r.value > t
  {
    var ticks := t + minutes * TicksPerMinute;
    if 0 <= ticks <= MaxTicks then Success(ticks) else Failure(ArgumentOutOfRange)
  }
}

=== FILE: wrappers.dfy ===
/** Failure-carrying values shared by every module: a nullable reference
    becomes an `Option`, a thrown exception becomes the `Failure` arm of a
    `Result`. */
module Wrappers {

  datatype Option<+T> = None | Some(value: T)

  datatype Result<+T, +E> = Success(value: T) | Failure(error: E)
}
